=== FILE: README.md ===
# Work permit store and approval workflow, in Dafny

This project models the core of a work-permit web application. Contractors
fill in excavation, hot-work and cold-work permits. The permits then go
through validation and approval by supervisors.

The model covers these parts:

- **The in-memory permit store** (`server/localStorage.ts`). This is class
  `PermitStore.LocalStorage`, with a `permits` list and an append-only
  `history` list as `seq` fields.
  - Creating a permit allocates the number `PT-<year>-<nnn>`, appends the
    permit and appends one `created` record.
  - Updating merges fields into the first permit with that id, or fails
    with `Permit not found`.
  - The queries (`getPermit`, `getPermits`, `getPermitHistory`,
    `getDashboardStats`) are functions over that state.
  - A ghost field records the year in which each permit's number was
    allocated, so that the distinctness of all numbers ever handed out
    can be stated and proved.
- **The workflow endpoints** (`server/routes.ts`). Stripped of HTTP, each
  of the PATCH, submit-for-validation, validate, approve and close handlers
  is one `updatePermit` followed by one `addPermitHistory`. All five are
  `Routes.Perform` over the `Routes.Action` datatype.
  - `Routes.StatusAfter` is the status state machine they implement.
    Neither the prior status nor the caller's role is checked.
  - `Routes.CreatePermitRoute` is the create endpoint: insert-schema
    validation followed by `createPermit`.
- **The shared schema** (`shared/schema.ts`):
  - the type, status and role enumerations;
  - what the insert schema accepts and drops;
  - the basic-information rules, including the `HH:MM` time pattern.
- **Client rules**:
  - who may edit, validate or approve on the permit page, what a save
    sends, and the status badge (`permit-details.tsx`);
  - the APT hazard-table rows, a class with a `seq` field
    (`apt-modal.tsx`);
  - the permit-type table and its fallback lookup (`lib/permits.ts`);
  - header initials, display name and role-based links (`header.tsx`);
  - the role badge (`role-badge.tsx`).

Modelling choices:

- **Objects.** A JavaScript object is a `map<string, Value>`. A missing key
  reads as `Undefined`. `Object.assign` and object spread are map union
  (`JsValues.Assign`). Conditions test JavaScript truthiness
  (`JsValues.Truthy`).
- **Clock and ids.** The clock and `randomUUID` become parameters: `now`,
  `today`, and the ids of new permits and records.
- **Date parsing.** Converting the `workDate` string to a date is the
  `workDay` parameter of the create route, and the `parseDate` parameter
  of the dashboard query.
- **Missing names and roles.** A null first name, last name, email or role
  is the empty string, which JavaScript treats as falsy.

Facts about the code worth knowing before reading the model:

- **Permit counter.** A permit's number uses the number of stored permits
  plus one, whatever the year. Numbers still stay pairwise distinct
  (`PermitStore.AllocatedNumbersDistinct`).
- **The `closed` status.** The close endpoint writes `closed`, which the
  schema's status enumeration lacks. The status badge shows it as a draft.
- **Unguarded changes.** PATCH applies its body verbatim, so it can
  rewrite `permitNumber` and `status`. No endpoint checks the prior status.

## Model

| member | source | states |
|---|---|---|
| JsValues.Assign | server/localStorage.ts:64 | `Object.assign` / spread: the keys of both objects; a key of the source wins, every other key keeps the target's value |
| Seqs.Filter | server/localStorage.ts:51-58 | `Array.prototype.filter`: the result is no longer than the input, holds only elements of the input that pass the test, and holds every element of the input that passes |
| Seqs.FilterPrefix | server/localStorage.ts:87 | filtering keeps order: the filtered prefix of a sequence is a prefix of the filtered sequence |
| Seqs.FilterPosition | server/localStorage.ts:51-58 | a kept element lands at the position given by the number of kept elements before it |
| Seqs.FilterSplit | server/localStorage.ts:93-95 | a test that is the union of two disjoint tests keeps as many elements as the two together |
| Seqs.FilterMonotone | server/localStorage.ts:96-101 | a weaker test keeps at least as many elements |
| Seqs.FilterDisjoint | server/localStorage.ts:92-95 | two tests no element passes together keep at most as many elements as the sequence has |
| Decimal.NatToString | server/localStorage.ts:71 | `toString` of a natural number: non-empty, all digits, no leading zero, a single digit exactly below 10 |
| Decimal.ValueOfNatToString | server/localStorage.ts:71 | reading back the decimal text of `n` gives `n` |
| Decimal.PadStart | server/localStorage.ts:71 | `padStart`: length is the larger of the width and the string's length, the string is kept as the suffix (never truncated), the prefix is fill characters |
| Decimal.PaddedValue | server/localStorage.ts:71 | zero-padding the decimal text of `n` keeps its value `n` |
| Schema.ParseType | shared/schema.ts:42 | a permit type read from text is one whose name is that text |
| Schema.ParseStatus | shared/schema.ts:43 | a status read from text is one whose name is that text |
| Schema.ParseRole | shared/schema.ts:33 | a role read from text is one whose name is that text |
| Schema.EnumRoundTrips | shared/schema.ts:33-43 | every type, status and role reads back from its name; `closed` is not a status |
| Schema.InsertOutput | shared/schema.ts:110-120 | the parsed insert object holds exactly `workDate` and the insert columns the input supplied (never `id`, `permitNumber`, `createdAt` or `updatedAt`, never an invented column); each supplied column except `workDate` keeps its value, and `workDate` becomes the converted date |
| Schema.ParseInsertPermit | shared/schema.ts:110-120 | parsing succeeds exactly when `type` is one of the three types, `workDate` is a string and every other insert column holds a value of its kind (the omitted server columns and unknown keys are not checked); a success never holds `id`, `permitNumber`, `createdAt` or `updatedAt`, holds a valid `type`, the converted `workDate`, and exactly the supplied insert columns with their values |
| Schema.MinimalInsertAccepted | shared/schema.ts:116-119 | a type and a work-date string are enough, even beside a numeric `id`; a date object as `workDate` or an unknown type is refused |
| Schema.OmittedKeysIgnored | shared/schema.ts:110-115 | setting `id`, `permitNumber`, `createdAt` or `updatedAt` to any value changes neither whether the body is accepted nor the parsed result: the omitted columns are stripped unchecked |
| Schema.ClockText | shared/schema.ts:134-135 | two two-digit fields joined by a colon match the time pattern |
| Schema.ClockTimeIsClockText | shared/schema.ts:134-135 | the time pattern holds exactly for two fields below 100 written as two digits each, joined by a colon |
| Schema.NoHourRangeCheck | shared/schema.ts:134-135 | `99:99` and `00:00` match; `9:30`, `09:30:00` and `09-30` do not |
| Schema.BasicInfoAccepted | shared/schema.ts:127-136 | the basic information has no issue exactly when the five text fields are non-empty strings, `workDate` is a date, and both times match the pattern |
| Schema.IssuesNameSchemaFields | shared/schema.ts:127-136 | every issue names one of the eight fields of the schema (`BasicInfoFields`) |
| PermitStore.CounterText | server/localStorage.ts:70-71 | the counter text has at least three digits and denotes the counter; exactly three below 100; from 100 on it is the plain decimal text (not truncated) |
| PermitStore.FirstDash | server/localStorage.ts:71 | position of the first dash: no dash before it, a dash at it unless it is the end |
| PermitStore.PermitNumberRoundTrip | server/localStorage.ts:68-72 | every `PT-<year>-<counter>` reads back as its year and counter, for counters of any width |
| PermitStore.ParseJoined | server/localStorage.ts:71 | `PT-`, digits, a dash and digits read back as the two digit strings' values |
| PermitStore.FirstDashAfterDigits | server/localStorage.ts:71 | in digits followed by a dash, the first dash comes right after the digits |
| PermitStore.PermitNumberInjective | server/localStorage.ts:68-72 | two equal permit numbers come from the same year and counter |
| PermitStore.AllocatedNumbersDistinct | server/localStorage.ts:30-72 | the numbers handed out to the permits in the store are pairwise distinct, across years |
| PermitStore.NextNumberIsFresh | server/localStorage.ts:68-72 | the next number is not among the numbers already handed out |
| PermitStore.NewPermit | server/localStorage.ts:22-29 | a new permit has the fresh id, the allocated number, the given status when truthy and the default status `draft` otherwise, both timestamps at `now`, and every other field of the data |
| PermitStore.Merged | server/localStorage.ts:64 | after the merge `updatedAt` is `now`, every key of the updates takes its value, every other key keeps the permit's value, and no key is lost |
| PermitStore.FindPermit | server/localStorage.ts:41 | `find`: the first position whose id matches, or the length when none does |
| PermitStore.CreatedRecordComesFirst | server/localStorage.ts:87 | the first record of a permit stays first in its filtered history whatever is appended after it |
| PermitStore.LocalStorage.constructor | server/localStorage.ts:17-19 | the store starts with no permits and no history |
| PermitStore.LocalStorage.GeneratePermitNumber | server/localStorage.ts:68-72 | the number is `PT-<year of now>-<total permits + 1, padded to 3>` and was never handed out before |
| PermitStore.LocalStorage.AddPermitHistory | server/localStorage.ts:74-84 | one record with the given id and time is appended; permits are unchanged; the history of the record's permit gains exactly that record at its end, every other permit's history is unchanged |
| PermitStore.LocalStorage.CreatePermit | server/localStorage.ts:21-38 | exactly one permit (built by `NewPermit` with the next number) and exactly one `created` record performed by the creator with comment `Permiso creado` are appended; the allocated numbers grow by that number |
| PermitStore.LocalStorage.GetPermit | server/localStorage.ts:40-42 | nothing exactly when no permit has that id; otherwise the first permit with that id |
| PermitStore.LocalStorage.UpdatePermit | server/localStorage.ts:61-66 | an unknown id fails with `Permit not found` and changes nothing; otherwise only the first matching permit changes, to its merge with the updates; history and the number of permits are unchanged |
| PermitStore.LocalStorage.GetPermits | server/localStorage.ts:44-59 | only stored permits that match every non-empty filter, every such permit, and with no filters the whole list |
| PermitStore.LocalStorage.GetPermitHistory | server/localStorage.ts:86-88 | only records of that permit, and every record of that permit |
| PermitStore.LocalStorage.GetDashboardStats | server/localStorage.ts:90-103 | active counts `approved`, pending counts the two pending statuses; approved-today counts the approved permits updated on that day and expiring-today those whose work date, a date or a non-empty string read by `new Date`, is that day; both are at most active; active plus pending is at most the number of permits |
| PermitStore.GetPermitsKeepsOrder | server/localStorage.ts:51-58 | a matching permit appears in the query result after exactly the matching permits stored before it; every position of the result is such a rank, and ranks strictly increase along the store, so each match appears exactly once, in store order |
| PermitStore.GetPermitHistoryKeepsOrder | server/localStorage.ts:86-88 | each record of the permit sits at its rank among that permit's records, every position of the result is such a rank, and ranks strictly increase: the permit's records exactly once each, in insertion order |
| Seqs.FilterRank | server/localStorage.ts:51-58 | every position of a filter's result holds a kept element with exactly that many kept elements before it |
| Seqs.FilterRankIncreases | server/localStorage.ts:51-58 | a kept element has fewer kept elements before it than any later position of the sequence, so no two kept elements share a position |
| PermitStore.HistoryStartsWithCreated | server/localStorage.ts:86-88 | a permit's history starts with its `created` record when no earlier record names the permit |
| Routes.StatusFollowsStateMachine | server/routes.ts:110-240 | the status an endpoint stores is the state machine's successor of the prior status |
| Routes.WorkflowIgnoresPriorStatus | server/routes.ts:133-240 | every endpoint but PATCH stores the same status from any prior status; a rejection yields `rejected`, close yields `closed` |
| Routes.WorkflowTouchesOnlyItsKeys | server/routes.ts:133-240 | an endpoint other than PATCH changes no field outside status, comments, validator, approver and update time |
| Routes.SubmitOutcome | server/routes.ts:133-163 | status `pending_validation`, validation comments as given, validator set only for a truthy validator id; the record is `submitted_for_validation` with comment defaulting to `Enviado para validación` |
| Routes.ValidateOutcome | server/routes.ts:165-188 | the approval flag alone selects `pending_approval`/`validated` or `rejected`/`rejected_by_validator`; the record is the whole history input: the acting user and the raw comments, with no default |
| Routes.ApproveOutcome | server/routes.ts:190-214 | the flag selects `approved`/`approved` or `rejected`/`rejected_by_supervisor`; the acting user becomes the approver either way; the record is the whole history input: the acting user and the raw comments, with no default |
| Routes.CloseOutcome | server/routes.ts:216-240 | status `closed` from any status although `closed` is not a schema status; record `closed` with comment defaulting to `Permiso cerrado` |
| Routes.PatchIsVerbatim | server/routes.ts:110-130 | PATCH stores every body field as given, even id, number and status; only the update time is the server's; its record is `updated` by the session user with comment defaulting to `Permiso actualizado` |
| Routes.Perform | server/routes.ts:110-240 | an unknown id fails and leaves the store unchanged; otherwise the permit becomes the endpoint's update and exactly one record is appended |
| Routes.CreatedIsCallersDraft | server/routes.ts:57-76 | whatever the body says, the created permit is a draft whose creator is the session user and whose number and id are the allocated ones |
| Routes.CreatePermitRoute | server/routes.ts:57-76 | invalid input fails with `Validation error` and changes nothing, allocation record included; otherwise one permit and one `created` record by the session user are appended and the allocation record grows by the current year |
| PermitDetails.GatesAreExclusive | client/src/pages/permits/permit-details.tsx:164-257 | validate and approve are never open together, edit excludes both, and the form is editable exactly when one of them is open |
| PermitDetails.NonReviewersOnlyEdit | client/src/pages/permits/permit-details.tsx:164-257 | for a user who is not a supervisor or administrator, the form is editable exactly when they may edit their own draft |
| PermitDetails.SaveBody | client/src/pages/permits/permit-details.tsx:114-118 | a save sends the form data with status `draft` for a draft save and the shown permit's status otherwise |
| PermitDetails.SaveThroughPatch | client/src/pages/permits/permit-details.tsx:114-118 | through PATCH, a non-draft save keeps the stored status and a draft save resets it to `draft` |
| PermitDetails.WorkflowOpensTheNextGate | client/src/pages/permits/permit-details.tsx:164-168 | after submission a reviewer may validate; after a positive validation a reviewer may approve; a rejection or a close makes the permit read-only |
| PermitDetails.StatusBadge | client/src/pages/permits/permit-details.tsx:170-180 | a schema status gets its own badge; any other status, `closed` included, gets the `Borrador` badge |
| PermitDetails.BadgeLabelsDistinct | client/src/pages/permits/permit-details.tsx:170-180 | the six statuses have six distinct captions, and `closed` shows as `Borrador` |
| AptModal.WithField | client/src/components/permit/apt-modal.tsx:70 | the chosen field takes the value; every other field is unchanged |
| AptModal.WithoutIndex | client/src/components/permit/apt-modal.tsx:76 | the rows before and after the index, in order; an index outside the list removes nothing |
| AptModal.AptSheet.constructor | client/src/components/permit/apt-modal.tsx:51-53 | the dialog opens with the initial rows |
| AptModal.AptSheet.AddRow | client/src/components/permit/apt-modal.tsx:62-65 | one empty row is appended, or nothing changes when read-only |
| AptModal.AptSheet.UpdateRow | client/src/components/permit/apt-modal.tsx:67-72 | only the chosen field of the chosen row changes, or nothing when read-only |
| AptModal.AptSheet.RemoveRow | client/src/components/permit/apt-modal.tsx:74-77 | the row at the index is dropped unless read-only or at most one row is left; a non-empty list stays non-empty |
| AptModal.NeverBelowOneRow | client/src/components/permit/apt-modal.tsx:62-77 | after any sequence of edits a list that started non-empty is still non-empty; read-only lists never change |
| AptModal.InitialRowCount | client/src/components/permit/apt-modal.tsx:51-53 | for every saved value: none gives one empty row, a saved list gives exactly that list; the sheet starts empty exactly for an empty saved list (truthy) |
| PermitTypes.GetPermitTypeConfig | client/src/lib/permits.ts:146-148 | a known type gets its own form, any other string the excavation form; every form lists ten protective items |
| PermitTypes.TableKeysAreTheTypes | client/src/lib/permits.ts:10-144 | the table holds exactly the three schema types, each under its own name |
| PermitTypes.ListSizes | client/src/lib/permits.ts:16-142 | checklists of 25, 27 and 21 questions; ten protective items per form |
| PermitTypes.FormsShareFirstAndLastQuestion | client/src/lib/permits.ts:16-130 | every checklist opens with the risk-analysis question and closes with the rest question; the titles tell the forms apart |
| RoleBadge.GetRoleConfig | client/src/components/ui/role-badge.tsx:7-28 | a known role gets its own badge, any other string the `user` badge |
| RoleBadge.CaptionsIdentifyRoles | client/src/components/ui/role-badge.tsx:9-27 | `Administrador`, `Supervisor`, `Usuario`, `Operador`, pairwise distinct; an unknown role reads `Usuario` |
| Header.UpperChar | client/src/components/layout/header.tsx:29 | `a`-`z` become `A`-`Z`; `à`-`þ` (not `÷`) move down 32 code points to their capitals; `ß` becomes `SS`, `µ` U+039C, `ÿ` U+0178; every other character is kept |
| Header.UpperCase | client/src/components/layout/header.tsx:29-35 | upper-casing yields no ASCII lower-case letter and between one and two characters per input character |
| Header.UpperCaseAppend | client/src/components/layout/header.tsx:29 | upper-casing a concatenation is the concatenation of the upper-cased parts |
| Header.AsciiUpperCaseKeepsLength | client/src/components/layout/header.tsx:29-35 | upper-casing ASCII text keeps its length and works position by position: each lower-case letter becomes its capital, every other character is kept |
| Header.AsciiInitials | client/src/components/layout/header.tsx:27-31 | two ASCII names give exactly two initials, each the capital of the name's first letter (or that character when it is no lower-case letter); `ana lopez` gives `AL` |
| Header.FirstTwo | client/src/components/layout/header.tsx:31-35 | `slice(0, 2)`: a prefix of at most two characters |
| Header.GetInitials | client/src/components/layout/header.tsx:27-38 | the initials are one to four characters without ASCII lower case |
| Header.InitialsCases | client/src/components/layout/header.tsx:27-38 | both names give their upper-cased first letters; only a first name gives its first two letters; without a first name, the email's first two letters upper-cased; a last name alone is ignored; nothing gives `U` |
| Header.GetDisplayName | client/src/components/layout/header.tsx:40-48 | never empty; `Usuario` without first name and email; starts with the first name when there is one |
| Header.DisplayNameCases | client/src/components/layout/header.tsx:40-48 | `first last`, else the first name, else the email; `Usuario` without a user |
| Header.NavByRole | client/src/components/layout/header.tsx:89-200 | the validator link for every role but `operator`; the supervisor and admin links for `admin` and `supervisor` only; none without a user |
| Header.NavMatchesReviewRights | client/src/components/layout/header.tsx:102 | the supervisor link is shown to exactly the users the permit page lets review; a `user` sees the validator link but can never validate or approve |
| Header.HeaderBadgeFollowsRole | client/src/components/layout/header.tsx:139 | the header badge is the badge of the user's role; without a user or with an empty role it is the `Usuario` badge |

## Left out

- HTTP and auth: status codes, JSON responses, sessions, authentication, the user endpoints and `/api/users` sanitising. The session user is the `userId` parameter.
- Async and concurrency: the model is sequential, so concurrent creations that race for the same permit number are not modelled.
- The clock and `randomUUID`: they are parameters. The separate `new Date()` calls of one request are one `now`.
- PermitStore.LocalStorage.GetDashboardStats: a numeric `workDate`, which `new Date` would read as a millisecond count, never counts as expiring today; `new Date(string)` itself is the `parseDate` parameter (and `workDay` on create), since date-string parsing is outside the model.
- Local time zones: `sameDay` compares the calendar fields of two instants.
- Aliasing: `updatePermit` mutates and returns the stored object; the model replaces the stored value and returns a copy.
- zod's messages for wrong types are reduced to `Expected string` and `Expected date`.
- JSON numbers are unbounded integers; floating point is left out.
- JavaScript prototype keys (such as `constructor`) are not looked up in the badge and permit-type tables.
- Header.UpperChar: only Basic Latin and Latin-1 letters are case-mapped, characters are code points rather than UTF-16 code units, and other scripts are kept as they are.
- AptModal.AptSheet.UpdateRow: requires the index to be inside the list when the dialog is editable. Out of range, JavaScript would create a sparse array entry. Every call site passes the index of a rendered row, so this never happens. `AptModal.Apply` treats an out-of-range `Update` as a no-op for the same reason: an edit sequence then needs no side condition. On in-range indices the two agree, as `UpdateRow`'s last ensures states.
- Years are natural numbers; negative years are left out.
- React rendering, hooks, queries and navigation, the other form fields of the APT dialog, and the dashboards.
- The PDF generator, the photo capture, the Postgres storage and the authentication module are not part of this model.
- The generated `dist/` bundle is not part of this model.

=== FILE: apt_modal.dfy ===
/** The hazard table of the APT (work hazard analysis) dialog: a list of
    rows the user grows, edits and shrinks, never below one row, and not at
    all when the dialog is read-only. */
module AptModal {
  import opened JsValues

  datatype AptRow = AptRow(workSteps: string, hazards: string, threats: string, barriers: string)

  datatype AptField = WorkSteps | Hazards | Threats | Barriers

  const EmptyRow := AptRow("", "", "", "")

  function FieldOf(row: AptRow, f: AptField): string
  {
    match f
    case WorkSteps => row.workSteps
    case Hazards => row.hazards
    case Threats => row.threats
    case Barriers => row.barriers
  }

  /** `{ ...row, [field]: value }` */
  function WithField(row: AptRow, f: AptField, value: string): (r: AptRow)
    ensures FieldOf(r, f) == value
    ensures forall g :: g != f ==> FieldOf(r, g) == FieldOf(row, g)
  {
    match f
    case WorkSteps => row.(workSteps := value)
    case Hazards => row.(hazards := value)
    case Threats => row.(threats := value)
    case Barriers => row.(barriers := value)
  }

  /** `data?.aptRows || [emptyRow]`: the saved rows when there are any
      (an array, even an empty one, is truthy), else one empty row. */
  function InitialRows(saved: Option<seq<AptRow>>): seq<AptRow>
  {
    if saved.Some? then saved.value else [EmptyRow]
  }

  /** `rows.filter((_, i) => i !== index)`: every row but the one at
      `index`, in order; an index outside the list removes nothing. */
  function WithoutIndex(rows: seq<AptRow>, index: int): (r: seq<AptRow>)
    ensures 0 <= index < |rows| ==> r == rows[..index] + rows[index + 1..]
    ensures !(0 <= index < |rows|) ==> r == rows
  {
    if rows == [] then []
    else
      var last := |rows| - 1;
      WithoutIndex(rows[..last], index) + (if last != index then [rows[last]] else [])
  }

  /** The three edits the dialog offers. */
  datatype Edit = Add | Update(row: nat, f: AptField, value: string) | Remove(at: int)

  /** The row list after one edit, as the dialog computes it. */
  function Apply(rows: seq<AptRow>, readOnly: bool, e: Edit): seq<AptRow>
  {
    if readOnly then rows
    else match e
      case Add => rows + [EmptyRow]
      case Update(i, f, v) => if i < |rows| then rows[i := WithField(rows[i], f, v)] else rows
      case Remove(i) => if |rows| <= 1 then rows else WithoutIndex(rows, i)
  }

  function ApplyAll(rows: seq<AptRow>, readOnly: bool, edits: seq<Edit>): seq<AptRow>
    decreases |edits|
  {
    if edits == [] then rows else ApplyAll(Apply(rows, readOnly, edits[0]), readOnly, edits[1..])
  }

  /** The row list of one open dialog. */
  class AptSheet {
    var rows: seq<AptRow>
    const readOnly: bool

    constructor (saved: Option<seq<AptRow>>, readOnly: bool)
      ensures rows == InitialRows(saved) && this.readOnly == readOnly
    {
      rows := InitialRows(saved);
      this.readOnly := readOnly;
    }

    /** `addRow`: one empty row at the end; nothing when read-only. */
    method AddRow()
      modifies this
      ensures readOnly ==> rows == old(rows)
      ensures !readOnly ==> rows == old(rows) + [EmptyRow]
      ensures rows == Apply(old(rows), readOnly, Add)
    {
      if readOnly {
        return;
      }
      rows := rows + [EmptyRow];
    }

    /** `updateRow`: one field of one row changes; nothing when read-only. */
    method UpdateRow(index: nat, f: AptField, value: string)
      requires readOnly || index < |rows|
      modifies this
      ensures readOnly ==> rows == old(rows)
      ensures !readOnly ==> rows == old(rows)[index := WithField(old(rows)[index], f, value)]
      ensures rows == Apply(old(rows), readOnly, Update(index, f, value))
    {
      if readOnly {
        return;
      }
      rows := rows[index := WithField(rows[index], f, value)];
    }

    /** `removeRow`: drops the row at `index`, unless the dialog is
        read-only or only one row (or none) is left. */
    method RemoveRow(index: int)
      modifies this
      ensures readOnly || |old(rows)| <= 1 ==> rows == old(rows)
      ensures !readOnly && |old(rows)| > 1 ==> rows == WithoutIndex(old(rows), index)
      ensures |old(rows)| >= 1 ==> |rows| >= 1
      ensures rows == Apply(old(rows), readOnly, Remove(index))
    {
      if readOnly || |rows| <= 1 {
        return;
      }
      rows := WithoutIndex(rows, index);
    }
  }

  /** A dialog that opens with rows never loses its last row, whatever the
      edits; a read-only dialog never changes its rows. */
  lemma {:induction false} NeverBelowOneRow(rows: seq<AptRow>, readOnly: bool, edits: seq<Edit>)
    requires |rows| >= 1
    decreases |edits|
    ensures |ApplyAll(rows, readOnly, edits)| >= 1
    ensures readOnly ==> ApplyAll(rows, readOnly, edits) == rows
  {
    if edits != [] {
      NeverBelowOneRow(Apply(rows, readOnly, edits[0]), readOnly, edits[1..]);
    }
  }

  /** A dialog opened without saved rows starts with exactly one empty row;
      one opened with a saved list starts with that list, so an empty saved
      list starts (and may stay) empty. */
  lemma InitialRowCount(saved: Option<seq<AptRow>>)
    ensures saved.None? ==> InitialRows(saved) == [EmptyRow]
    ensures saved.Some? ==> InitialRows(saved) == saved.value
    ensures |InitialRows(saved)| == 0 <==> saved == Some([])
    ensures InitialRows(None) == [EmptyRow]
    ensures InitialRows(Some([])) == []
  {
  }
}

=== FILE: decimal.dfy ===
/** Decimal text of natural numbers, as produced by `Number.prototype.toString`
    and `String.prototype.padStart`, and its numeric value. */
module Decimal {

  predicate IsDigit(c: char)
  {
    '0' <= c <= '9'
  }

  predicate AllDigits(s: string)
  {
    forall i :: 0 <= i < |s| ==> IsDigit(s[i])
  }

  function DigitChar(d: nat): (c: char)
    requires d < 10
    ensures IsDigit(c)
  {
    ('0' as int + d) as char
  }

  function DigitValue(c: char): (d: nat)
    requires IsDigit(c)
    ensures d < 10 && DigitChar(d) == c
  {
    c as int - '0' as int
  }

  /** `n.toString()`: the shortest decimal text, no sign, no leading zero. */
  function NatToString(n: nat): (s: string)
    ensures |s| >= 1 && AllDigits(s)
    ensures s[0] == '0' ==> n == 0
    ensures n < 10 <==> |s| == 1
    decreases n
  {
    if n < 10 then [DigitChar(n)] else NatToString(n / 10) + [DigitChar(n % 10)]
  }

  /** The number a string of decimal digits denotes (leading zeros allowed). */
  function Value(s: string): nat
    requires AllDigits(s)
  {
    if s == [] then 0 else Value(s[..|s| - 1]) * 10 + DigitValue(s[|s| - 1])
  }

  /** Reading back what `NatToString` wrote gives the number again. */
  lemma {:induction false} ValueOfNatToString(n: nat)
    ensures Value(NatToString(n)) == n
    decreases n
  {
    if n >= 10 {
      ValueOfNatToString(n / 10);
      var s := NatToString(n);
      assert s[..|s| - 1] == NatToString(n / 10);
    }
  }

  /** `s.padStart(width, fill)`: `fill` repeated on the left up to `width`
      characters; a string already that long is returned unchanged (never
      truncated). */
  function PadStart(s: string, width: nat, fill: char): (r: string)
    ensures |r| == if |s| >= width then |s| else width
    ensures r[|r| - |s|..] == s
    ensures forall i :: 0 <= i < |r| - |s| ==> r[i] == fill
  {
    if |s| >= width then s else seq(width - |s|, _ => fill) + s
  }

  /** Leading zeros do not change the value of a digit string. */
  lemma {:induction false} ValueIgnoresLeadingZeros(z: string, s: string)
    requires forall i :: 0 <= i < |z| ==> z[i] == '0'
    requires AllDigits(s)
    ensures AllDigits(z + s) && Value(z + s) == Value(s)
    decreases |s|
  {
    if s == [] {
      assert z + s == z;
      ZerosAreZero(z);
    } else {
      var t := z + s;
      assert t[..|t| - 1] == z + s[..|s| - 1];
      ValueIgnoresLeadingZeros(z, s[..|s| - 1]);
    }
  }

  lemma {:induction false} ZerosAreZero(z: string)
    requires forall i :: 0 <= i < |z| ==> z[i] == '0'
    ensures AllDigits(z) && Value(z) == 0
  {
    if z != [] {
      ZerosAreZero(z[..|z| - 1]);
    }
  }

  /** `n.toString().padStart(width, "0")` still denotes `n`. */
  lemma PaddedValue(n: nat, width: nat)
    ensures AllDigits(PadStart(NatToString(n), width, '0'))
    ensures Value(PadStart(NatToString(n), width, '0')) == n
  {
    var s := NatToString(n);
    var r := PadStart(s, width, '0');
    var z := r[..|r| - |s|];
    assert r == z + s;
    ValueIgnoresLeadingZeros(z, s);
    ValueOfNatToString(n);
  }
}

=== FILE: header.dfy ===
/** The page header: the avatar initials, the display name, the role badge
    and which dashboard links each role sees. */
module Header {
  import opened JsValues
  import Schema
  import RoleBadge
  import PermitDetails

  predicate IsAsciiLower(c: char)
  {
    'a' <= c <= 'z'
  }

  /** `toUpperCase` on one character, for the Basic Latin and Latin-1
      ranges: ASCII and accented lower-case letters move up by 32, `ß`
      becomes `SS`, `µ` and `ÿ` map to their Greek and Latin Extended
      capitals; every other character is kept. */
  function UpperChar(c: char): (r: string)
    ensures 1 <= |r| <= 2
    ensures forall i :: 0 <= i < |r| ==> !IsAsciiLower(r[i])
    ensures IsAsciiLower(c) ==> r == [(c as int - 'a' as int + 'A' as int) as char] && 'A' <= r[0] <= 'Z'
    ensures 0xE0 as char <= c <= 0xFE as char && c != 0xF7 as char ==> r == [(c as int - 32) as char]
    ensures c == 0xDF as char ==> r == "SS"
    ensures c == 0xB5 as char ==> r == [0x39C as char]
    ensures c == 0xFF as char ==> r == [0x178 as char]
    ensures !IsAsciiLower(c) && !(0xDF as char <= c <= 0xFF as char && c != 0xF7 as char) && c != 0xB5 as char ==>
      r == [c]
  {
    if IsAsciiLower(c) then [(c as int - 32) as char]
    else if c == 0xDF as char then "SS"
    else if c == 0xB5 as char then [0x39C as char]
    else if c == 0xFF as char then [0x178 as char]
    else if 0xE0 as char <= c <= 0xFE as char && c != 0xF7 as char then [(c as int - 32) as char]
    else [c]
  }

  /** `toUpperCase`, character by character. */
  function UpperCase(s: string): (r: string)
    ensures |s| <= |r| <= 2 * |s|
    ensures forall i :: 0 <= i < |r| ==> !IsAsciiLower(r[i])
  {
    if s == [] then "" else UpperChar(s[0]) + UpperCase(s[1..])
  }

  /** Upper-casing works piece by piece. */
  lemma {:induction false} UpperCaseAppend(a: string, b: string)
    ensures UpperCase(a + b) == UpperCase(a) + UpperCase(b)
  {
    if a == [] {
      assert a + b == b;
    } else {
      assert (a + b)[0] == a[0] && (a + b)[1..] == a[1..] + b;
      UpperCaseAppend(a[1..], b);
    }
  }

  /** The first two characters of `s`, or all of it when shorter
      (`slice(0, 2)`). */
  function FirstTwo(s: string): (r: string)
    ensures |r| == if |s| < 2 then |s| else 2
    ensures r <= s
  {
    if |s| < 2 then s else s[..2]
  }

  /** `getInitials`: the initials of both names, else the first two letters
      of the first name, else of the email, else `U`; an empty string
      stands for a missing value. */
  function GetInitials(firstName: string, lastName: string, email: string): (r: string)
    ensures 1 <= |r| <= 4
    ensures forall i :: 0 <= i < |r| ==> !IsAsciiLower(r[i])
  {
    if firstName != "" && lastName != "" then UpperCase([firstName[0], lastName[0]])
    else if firstName != "" then UpperCase(FirstTwo(firstName))
    else if email != "" then UpperCase(FirstTwo(email))
    else "U"
  }

  /** The four cases of the initials. A last name without a first name
      plays no part. */
  lemma InitialsCases(firstName: string, lastName: string, email: string)
    ensures firstName != "" && lastName != "" ==>
      GetInitials(firstName, lastName, email) == UpperChar(firstName[0]) + UpperChar(lastName[0])
    ensures firstName != "" && lastName == "" ==>
      GetInitials(firstName, lastName, email) == UpperCase(FirstTwo(firstName))
    ensures firstName == "" ==> GetInitials(firstName, lastName, email) == GetInitials("", "", email)
    ensures firstName == "" && email != "" ==>
      GetInitials(firstName, lastName, email) == UpperCase(FirstTwo(email))
    ensures GetInitials("", "", "") == "U"
  {
    if firstName != "" && lastName != "" {
      UpperCaseAppend([firstName[0]], [lastName[0]]);
      assert [firstName[0]] + [lastName[0]] == [firstName[0], lastName[0]];
    }
  }

  /** Upper-casing ASCII text keeps its length and works position by
      position: a lower-case letter becomes its capital and every other
      character stays, so ASCII names give initials of at most two
      letters. */
  lemma {:induction false} AsciiUpperCaseKeepsLength(s: string)
    requires forall i :: 0 <= i < |s| ==> s[i] < 128 as char
    ensures |UpperCase(s)| == |s|
    ensures forall i :: 0 <= i < |s| ==> UpperCase(s)[i] == UpperChar(s[i])[0]
    ensures forall i :: 0 <= i < |s| && IsAsciiLower(s[i]) ==>
      UpperCase(s)[i] == (s[i] as int - 'a' as int + 'A' as int) as char
    ensures forall i :: 0 <= i < |s| && !IsAsciiLower(s[i]) ==> UpperCase(s)[i] == s[i]
  {
    if s != [] {
      AsciiUpperCaseKeepsLength(s[1..]);
      var head := UpperChar(s[0]);
      assert |head| == 1;
      assert UpperCase(s) == head + UpperCase(s[1..]);
      forall i | 0 <= i < |s|
        ensures UpperCase(s)[i] == UpperChar(s[i])[0]
      {
        if i > 0 {
          assert UpperCase(s)[i] == UpperCase(s[1..])[i - 1];
          assert s[1..][i - 1] == s[i];
        }
      }
    }
  }

  /** Two ASCII names give their two capital initials. */
  lemma AsciiInitials(firstName: string, lastName: string, email: string)
    requires firstName != "" && lastName != ""
    requires firstName[0] < 128 as char && lastName[0] < 128 as char
    ensures |GetInitials(firstName, lastName, email)| == 2
    ensures IsAsciiLower(firstName[0]) ==>
      GetInitials(firstName, lastName, email)[0] == (firstName[0] as int - 'a' as int + 'A' as int) as char
    ensures !IsAsciiLower(firstName[0]) ==> GetInitials(firstName, lastName, email)[0] == firstName[0]
    ensures IsAsciiLower(lastName[0]) ==>
      GetInitials(firstName, lastName, email)[1] == (lastName[0] as int - 'a' as int + 'A' as int) as char
    ensures !IsAsciiLower(lastName[0]) ==> GetInitials(firstName, lastName, email)[1] == lastName[0]
    ensures GetInitials("ana", "lopez", email) == "AL"
  {
    InitialsCases(firstName, lastName, email);
    InitialsCases("ana", "lopez", email);
  }

  /** The signed-in user's names and email, each empty when missing;
      no user at all gives three empty strings. */
  function NameParts(user: Option<Schema.UserRecord>): (string, string, string)
  {
    if user.None? then ("", "", "") else (user.value.firstName, user.value.lastName, user.value.email)
  }

  /** `getDisplayName`: "first last", else the first name, else the email,
      else `Usuario`. */
  function GetDisplayName(user: Option<Schema.UserRecord>): (name: string)
    ensures |name| > 0
    ensures NameParts(user).0 == "" && NameParts(user).2 == "" ==> name == "Usuario"
    ensures NameParts(user).0 != "" ==> NameParts(user).0 <= name
  {
    var (first, last, email) := NameParts(user);
    if first != "" && last != "" then first + " " + last
    else if first != "" then first
    else if email != "" then email
    else "Usuario"
  }

  /** The display name starts with the first name when there is one and is
      the email only when there is no first name. */
  lemma DisplayNameCases(user: Option<Schema.UserRecord>)
    ensures var (first, last, email) := NameParts(user);
      (first != "" && last != "" ==> GetDisplayName(user) == first + " " + last) &&
      (first != "" && last == "" ==> GetDisplayName(user) == first) &&
      (first == "" && email != "" ==> GetDisplayName(user) == email)
    ensures GetDisplayName(None) == "Usuario"
  {
  }

  /** The `Validar` link. */
  predicate ShowsValidatorNav(user: Option<Schema.UserRecord>)
  {
    var role := Schema.RoleOf(user);
    role == Str("admin") || role == Str("supervisor") || role == Str("user")
  }

  /** The `Supervisar` link. */
  predicate ShowsSupervisorNav(user: Option<Schema.UserRecord>)
  {
    var role := Schema.RoleOf(user);
    role == Str("admin") || role == Str("supervisor")
  }

  /** The `Administración` link, in the desktop bar and in the menu. */
  predicate ShowsAdminNav(user: Option<Schema.UserRecord>)
  {
    var role := Schema.RoleOf(user);
    role == Str("admin") || role == Str("supervisor")
  }

  /** Which links each role sees: operators only the common ones,
      ordinary users also the validator dashboard, supervisors and
      administrators all three; with no user, none of them. */
  lemma NavByRole(user: Option<Schema.UserRecord>, r: Schema.Role)
    requires user.Some? && user.value.role == Schema.RoleName(r)
    ensures ShowsValidatorNav(user) <==> r != Schema.Operator
    ensures ShowsSupervisorNav(user) <==> r == Schema.Admin || r == Schema.Supervisor
    ensures ShowsAdminNav(user) <==> ShowsSupervisorNav(user)
    ensures ShowsSupervisorNav(user) ==> ShowsValidatorNav(user)
    ensures !ShowsValidatorNav(None) && !ShowsSupervisorNav(None)
  {
  }

  /** The supervisor link is shown to exactly the users the permit page
      lets review; an ordinary user is offered the validator dashboard but
      can never validate or approve a permit there. */
  lemma NavMatchesReviewRights(user: Option<Schema.UserRecord>, permit: Obj)
    ensures ShowsSupervisorNav(user) <==> PermitDetails.IsReviewer(user)
    ensures Schema.RoleOf(user) == Str("user") ==>
      ShowsValidatorNav(user) &&
      !PermitDetails.CanValidate(permit, user) && !PermitDetails.CanApprove(permit, user)
  {
  }

  /** `user?.role || 'user'`: the role the badge is drawn for. */
  function BadgeRole(user: Option<Schema.UserRecord>): string
  {
    if user.Some? && user.value.role != "" then user.value.role else "user"
  }

  /** The header's badge is the badge of the user's own role; without a
      user, or with an empty role, it is the `Usuario` badge. */
  lemma HeaderBadgeFollowsRole(user: Option<Schema.UserRecord>, r: Schema.Role)
    ensures user.None? || user.value.role == "" ==>
      RoleBadge.GetRoleConfig(BadgeRole(user)) == RoleBadge.ConfigOf(Schema.DefaultRole) &&
      RoleBadge.GetRoleConfig(BadgeRole(user)).caption == "Usuario"
    ensures user.Some? && user.value.role == Schema.RoleName(r) ==>
      RoleBadge.GetRoleConfig(BadgeRole(user)) == RoleBadge.ConfigOf(r)
  {
  }
}

=== FILE: js_values.dfy ===
/** Values of the JavaScript world the permit store lives in: records are
    plain objects (string keys to values), a missing key reads as
    `undefined`, spreading and `Object.assign` overwrite key by key, and
    conditions test "truthiness" rather than booleans. */
module JsValues {

  /** A point in local time. `sameDay` only looks at the calendar part. */
  datatype Instant = Instant(year: nat, month: nat, day: nat, millis: nat)

  /** A JSON-ish value as it appears in a permit, a request body or an
      update object. `Structured` stands for an array or an object (held by
      its text), which JavaScript always treats as truthy. */
  datatype Value =
    | Undefined
    | Null
    | Bool(b: bool)
    | Num(n: int)
    | Str(s: string)
    | Stamp(at: Instant)
    | Structured(json: string)

  /** A plain JavaScript object. */
  type Obj = map<string, Value>

  datatype Option<T> = None | Some(value: T)

  datatype Result<T> = Success(value: T) | Failure(error: string)

  /** Reading `o[k]`: a missing key is `undefined`. */
  function Get(o: Obj, k: string): Value
  {
    if k in o then o[k] else Undefined
  }

  /** JavaScript truthiness: `undefined`, `null`, `false`, `0` and `""`
      are falsy, everything else (including every Date, array and object)
      is truthy. */
  predicate Truthy(v: Value)
  {
    match v
    case Undefined => false
    case Null => false
    case Bool(b) => b
    case Num(n) => n != 0
    case Str(s) => s != ""
    case Stamp(_) => true
    case Structured(_) => true
  }

  /** `v || fallback` */
  function Or(v: Value, fallback: Value): Value
  {
    if Truthy(v) then v else fallback
  }

  /** `Object.assign(target, source)` and `{ ...target, ...source }`:
      every own key of `source` overwrites, every other key of `target`
      stays. */
  function Assign(target: Obj, source: Obj): (r: Obj)
    ensures r.Keys == target.Keys + source.Keys
    ensures forall k :: Get(r, k) == (if k in source then source[k] else Get(target, k))
  {
    target + source
  }

  /** `sameDay(a, b)` of server/localStorage.ts: same local year, month and
      day of the month; the time of day is ignored. */
  predicate SameDay(a: Instant, b: Instant)
  {
    a.year == b.year && a.month == b.month && a.day == b.day
  }
}

=== FILE: permit_details.dfy ===
/** The permit detail page: who may edit, validate or approve the permit on
    screen, what a save sends back, and the status badge. */
module PermitDetails {
  import opened JsValues
  import Schema
  import Routes

  /** The author may edit while the permit is a draft. */
  predicate CanEdit(permit: Obj, user: Option<Schema.UserRecord>)
  {
    Get(permit, "status") == Str("draft") && Get(permit, "createdBy") == Schema.IdOf(user)
  }

  /** Supervisors and administrators review. */
  predicate IsReviewer(user: Option<Schema.UserRecord>)
  {
    Schema.RoleOf(user) == Str("supervisor") || Schema.RoleOf(user) == Str("admin")
  }

  predicate CanValidate(permit: Obj, user: Option<Schema.UserRecord>)
  {
    IsReviewer(user) && Get(permit, "status") == Str("pending_validation")
  }

  predicate CanApprove(permit: Obj, user: Option<Schema.UserRecord>)
  {
    IsReviewer(user) && Get(permit, "status") == Str("pending_approval")
  }

  /** The form is read-only when none of the three actions is open. */
  predicate ReadOnly(permit: Obj, user: Option<Schema.UserRecord>)
  {
    !CanEdit(permit, user) && !CanValidate(permit, user) && !CanApprove(permit, user)
  }

  /** At most one of the three gates is open at a time, since each asks
      for a different status; the form is editable exactly when one is. */
  lemma GatesAreExclusive(permit: Obj, user: Option<Schema.UserRecord>)
    ensures !(CanValidate(permit, user) && CanApprove(permit, user))
    ensures !(CanEdit(permit, user) && (CanValidate(permit, user) || CanApprove(permit, user)))
    ensures !ReadOnly(permit, user) <==> CanEdit(permit, user) || CanValidate(permit, user) || CanApprove(permit, user)
  {
  }

  /** A user who is neither supervisor nor administrator can only ever
      edit their own drafts; every other permit is read-only to them. */
  lemma NonReviewersOnlyEdit(permit: Obj, user: Option<Schema.UserRecord>)
    requires !IsReviewer(user)
    ensures !ReadOnly(permit, user) <==> CanEdit(permit, user)
  {
  }

  /** `handleSave`: the form data with `status` set to `draft` when saving a
      draft, otherwise to the status the page shows (`permit?.status`). */
  function SaveBody(data: Obj, isDraft: bool, shown: Option<Obj>): (body: Obj)
    ensures Get(body, "status") ==
      if isDraft then Str("draft") else if shown.None? then Undefined else Get(shown.value, "status")
    ensures forall k :: k != "status" ==> Get(body, k) == Get(data, k)
  {
    Assign(data, map["status" := if isDraft then Str("draft") else if shown.None? then Undefined else Get(shown.value, "status")])
  }

  /** Saving without the draft flag, from a page that shows the stored
      permit, leaves the stored status as it was; saving as a draft puts
      the permit back to `draft`, whatever its status was. */
  lemma SaveThroughPatch(data: Obj, stored: Obj, userId: string, now: Instant)
    ensures Get(Routes.After(Routes.Patch(SaveBody(data, false, Some(stored))), stored, userId, now), "status") ==
            Get(stored, "status")
    ensures Get(Routes.After(Routes.Patch(SaveBody(data, true, Some(stored))), stored, userId, now), "status") ==
            Str("draft")
  {
    Routes.StatusFollowsStateMachine(Routes.Patch(SaveBody(data, false, Some(stored))), stored, userId, now);
    Routes.StatusFollowsStateMachine(Routes.Patch(SaveBody(data, true, Some(stored))), stored, userId, now);
  }

  /** After submission for validation a reviewer can validate; after a
      positive validation a reviewer can approve; a rejected or closed
      permit is read-only to everyone. */
  lemma WorkflowOpensTheNextGate(prior: Obj, user: Option<Schema.UserRecord>, a: Routes.Action, actor: string, now: Instant)
    ensures a.SubmitForValidation? && IsReviewer(user) ==> CanValidate(Routes.After(a, prior, actor, now), user)
    ensures a.Validate? && Truthy(a.approved) && IsReviewer(user) ==> CanApprove(Routes.After(a, prior, actor, now), user)
    ensures (a.Validate? || a.Approve?) && !Truthy(a.approved) ==> ReadOnly(Routes.After(a, prior, actor, now), user)
    ensures a.Close? ==> ReadOnly(Routes.After(a, prior, actor, now), user)
  {
    Routes.StatusFollowsStateMachine(a, prior, actor, now);
  }

  datatype Badge = Badge(caption: string, cssClass: string)

  const StatusBadges: map<string, Badge> := map[
    "draft" := Badge("Borrador", "bg-gray-100 text-gray-800"),
    "pending_validation" := Badge("Pendiente Validación", "bg-yellow-100 text-yellow-800"),
    "pending_approval" := Badge("Pendiente Aprobación", "bg-blue-100 text-blue-800"),
    "approved" := Badge("Aprobado", "bg-green-100 text-green-800"),
    "rejected" := Badge("Rechazado", "bg-red-100 text-red-800"),
    "expired" := Badge("Vencido", "bg-gray-100 text-gray-800")
  ]

  /** `getStatusBadge`: the badge of a schema status, the draft badge for
      anything else (including `closed`). */
  function StatusBadge(status: string): (b: Badge)
    ensures Schema.ParseStatus(status).None? ==> b.caption == "Borrador"
    ensures Schema.ParseStatus(status).Some? ==> b == StatusBadges[status]
  {
    if status in StatusBadges then StatusBadges[status] else StatusBadges["draft"]
  }

  /** The six schema statuses have six different labels, and a closed
      permit is shown with the draft label. */
  lemma BadgeLabelsDistinct(s1: Schema.PermitStatus, s2: Schema.PermitStatus)
    ensures StatusBadge(Schema.StatusName(s1)).caption == StatusBadge(Schema.StatusName(s2)).caption ==> s1 == s2
    ensures StatusBadge("closed").caption == "Borrador"
  {
  }
}

=== FILE: permit_store.dfy ===
/** The in-memory permit store of server/localStorage.ts: a list of permits
    and an append-only list of history records, the sequential permit
    number allocator, and the read-only queries over them. */
module PermitStore {
  import opened JsValues
  import opened Seqs
  import Decimal
  import Schema

  // ------------------------------------------------------ permit numbers

  /** The counter part of a permit number: `n.toString().padStart(3, "0")`. */
  function CounterText(n: nat): (r: string)
    ensures |r| >= 3 && Decimal.AllDigits(r) && Decimal.Value(r) == n
    ensures n < 100 ==> |r| == 3
    ensures n >= 100 ==> r == Decimal.NatToString(n)
  {
    Decimal.PaddedValue(n, 3);
    assert n >= 100 ==> |Decimal.NatToString(n / 10)| >= 2;
    Decimal.PadStart(Decimal.NatToString(n), 3, '0')
  }

  /** `PT-${year}-${counter padded to three digits}`. */
  function PermitNumber(year: nat, counter: nat): string
  {
    "PT-" + Decimal.NatToString(year) + "-" + CounterText(counter)
  }

  /** Index of the first `'-'` in `s`, or `|s|` if there is none. */
  function FirstDash(s: string): (k: nat)
    ensures k <= |s|
    ensures forall i :: 0 <= i < k ==> s[i] != '-'
    ensures k < |s| ==> s[k] == '-'
  {
    if s == [] then 0 else if s[0] == '-' then 0 else 1 + FirstDash(s[1..])
  }

  /** Reads a permit number back into its year and counter. */
  function ParsePermitNumber(s: string): Option<(nat, nat)>
  {
    if |s| < 3 || s[..3] != "PT-" then None
    else
      var rest := s[3..];
      var k := FirstDash(rest);
      if k == 0 || k == |rest| then None
      else
        var year := rest[..k];
        var counter := rest[k + 1..];
        if counter == [] || !Decimal.AllDigits(year) || !Decimal.AllDigits(counter) then None
        else Some((Decimal.Value(year), Decimal.Value(counter)))
  }

  /** Every permit number reads back as the year and counter it was built
      from, whatever the number of digits (a counter of 1000 or more is not
      truncated). */
  lemma PermitNumberRoundTrip(year: nat, counter: nat)
    ensures ParsePermitNumber(PermitNumber(year, counter)) == Some((year, counter))
  {
    ParseJoined(Decimal.NatToString(year), CounterText(counter));
    Decimal.ValueOfNatToString(year);
  }

  lemma ParseJoined(y: string, c: string)
    requires |y| >= 1 && Decimal.AllDigits(y) && |c| >= 1 && Decimal.AllDigits(c)
    ensures ParsePermitNumber("PT-" + y + "-" + c) == Some((Decimal.Value(y), Decimal.Value(c)))
  {
    var rest := y + "-" + c;
    var s := "PT-" + y + "-" + c;
    assert s == "PT-" + rest;
    assert s[..3] == "PT-" && s[3..] == rest;
    FirstDashAfterDigits(y, c);
    assert rest[..|y|] == y;
    assert rest[|y| + 1..] == c;
  }

  lemma {:induction false} FirstDashAfterDigits(y: string, c: string)
    requires Decimal.AllDigits(y)
    ensures FirstDash(y + "-" + c) == |y|
  {
    if y != [] {
      assert (y + "-" + c)[1..] == y[1..] + "-" + c;
      FirstDashAfterDigits(y[1..], c);
    }
  }

  /** Different (year, counter) pairs give different permit numbers. */
  lemma PermitNumberInjective(y1: nat, c1: nat, y2: nat, c2: nat)
    requires PermitNumber(y1, c1) == PermitNumber(y2, c2)
    ensures y1 == y2 && c1 == c2
  {
    PermitNumberRoundTrip(y1, c1);
    PermitNumberRoundTrip(y2, c2);
  }

  /** The numbers handed out so far: the `i`-th permit got counter `i + 1`
      in the year recorded for it. */
  ghost function AllocatedNumbers(years: seq<nat>): (r: seq<string>)
    ensures |r| == |years|
  {
    seq(|years|, i requires 0 <= i < |years| => PermitNumber(years[i], i + 1))
  }

  /** Allocated permit numbers are pairwise distinct, even across years:
      the counter is the total number of permits, which only grows. */
  lemma AllocatedNumbersDistinct(years: seq<nat>)
    ensures forall i, j :: 0 <= i < j < |years| ==> AllocatedNumbers(years)[i] != AllocatedNumbers(years)[j]
  {
    forall i, j | 0 <= i < j < |years|
      ensures AllocatedNumbers(years)[i] != AllocatedNumbers(years)[j]
    {
      if PermitNumber(years[i], i + 1) == PermitNumber(years[j], j + 1) {
        PermitNumberInjective(years[i], i + 1, years[j], j + 1);
      }
    }
  }

  /** One more allocation appends exactly its number to those handed out. */
  lemma AllocatedNumbersSnoc(years: seq<nat>, year: nat)
    ensures AllocatedNumbers(years + [year]) == AllocatedNumbers(years) + [PermitNumber(year, |years| + 1)]
  {
    var after := years + [year];
    assert forall i :: 0 <= i < |years| ==> after[i] == years[i];
  }

  /** The next number is not among those already handed out. */
  lemma NextNumberIsFresh(years: seq<nat>, year: nat)
    ensures PermitNumber(year, |years| + 1) !in AllocatedNumbers(years)
  {
    if PermitNumber(year, |years| + 1) in AllocatedNumbers(years) {
      var i :| 0 <= i < |years| && AllocatedNumbers(years)[i] == PermitNumber(year, |years| + 1);
      PermitNumberInjective(years[i], i + 1, year, |years| + 1);
    }
  }

  // ------------------------------------------------------------- records

  /** A new permit: the given data, then a fresh id, the allocated number,
      the status (the given one, `"draft"` when it is falsy) and both
      timestamps. */
  function NewPermit(data: Obj, id: string, number: string, now: Instant): (p: Obj)
    ensures Get(p, "id") == Str(id) && Get(p, "permitNumber") == Str(number)
    ensures Get(p, "status") == if Truthy(Get(data, "status")) then Get(data, "status") else Str("draft")
    ensures Get(p, "createdAt") == Stamp(now) && Get(p, "updatedAt") == Stamp(now)
    ensures forall k :: k !in {"id", "permitNumber", "status", "createdAt", "updatedAt"} ==> Get(p, k) == Get(data, k)
  {
    Assign(data, map["id" := Str(id), "permitNumber" := Str(number),
                     "status" := Or(Get(data, "status"), Str(Schema.StatusName(Schema.DefaultStatus))),
                     "createdAt" := Stamp(now), "updatedAt" := Stamp(now)])
  }

  /** `Object.assign(permit, updates, { updatedAt: new Date() })`. */
  function Merged(p: Obj, updates: Obj, now: Instant): (r: Obj)
    ensures Get(r, "updatedAt") == Stamp(now)
    ensures forall k :: k != "updatedAt" ==> Get(r, k) == if k in updates then updates[k] else Get(p, k)
    ensures r.Keys == p.Keys + updates.Keys + {"updatedAt"}
  {
    Assign(Assign(p, updates), map["updatedAt" := Stamp(now)])
  }

  /** What a caller hands to `addPermitHistory`. */
  datatype HistoryInput = HistoryInput(permitId: string, action: string, performedBy: Value, comments: Value)

  /** A stored history record. */
  datatype HistoryEntry = HistoryEntry(id: string, permitId: string, action: string,
                                       performedBy: Value, comments: Value, timestamp: Instant)

  /** Position of the first permit whose `id` is `id`, or `|ps|` if there
      is none (`Array.prototype.find`). */
  function FindPermit(ps: seq<Obj>, id: string): (k: nat)
    ensures k <= |ps|
    ensures forall j :: 0 <= j < k ==> Get(ps[j], "id") != Str(id)
    ensures k < |ps| ==> Get(ps[k], "id") == Str(id)
  {
    if ps == [] then 0
    else if Get(ps[0], "id") == Str(id) then 0
    else 1 + FindPermit(ps[1..], id)
  }

  // --------------------------------------------------------- query rules

  /** The optional filters of `getPermits`; an empty string means "not
      given" (a falsy filter is ignored). */
  datatype Filters = Filters(status: string, permitType: string, createdBy: string,
                             validatedBy: string, approvedBy: string)

  const NoFilters := Filters("", "", "", "", "")

  predicate FieldMatches(p: Obj, key: string, wanted: string)
  {
    wanted == "" || Get(p, key) == Str(wanted)
  }

  predicate Matches(p: Obj, f: Filters)
  {
    FieldMatches(p, "status", f.status) && FieldMatches(p, "type", f.permitType) &&
    FieldMatches(p, "createdBy", f.createdBy) && FieldMatches(p, "validatedBy", f.validatedBy) &&
    FieldMatches(p, "approvedBy", f.approvedBy)
  }

  function Matching(f: Filters): Obj -> bool
  {
    (p: Obj) => Matches(p, f)
  }

  function OfPermit(permitId: string): HistoryEntry -> bool
  {
    (h: HistoryEntry) => h.permitId == permitId
  }

  function WithStatus(name: string): Obj -> bool
  {
    (p: Obj) => Get(p, "status") == Str(name)
  }

  /** A date value that falls on `today`. */
  predicate OnDay(v: Value, today: Instant)
  {
    v.Stamp? && SameDay(v.at, today)
  }

  function ApprovedOn(today: Instant): Obj -> bool
  {
    (p: Obj) => Get(p, "status") == Str("approved") && OnDay(Get(p, "updatedAt"), today)
  }

  /** `new Date(v)` for a stored work date: a date stays itself, a string
      is read by `parseDate` (`None` for an invalid date, which falls on no
      day), anything else is no date. */
  function AsDate(v: Value, parseDate: string -> Option<Instant>): Option<Instant>
  {
    if v.Stamp? then Some(v.at) else if v.Str? then parseDate(v.s) else None
  }

  /** `p.workDate && sameDay(new Date(p.workDate), today)`. */
  predicate WorkOnDay(v: Value, today: Instant, parseDate: string -> Option<Instant>)
  {
    Truthy(v) && AsDate(v, parseDate).Some? && SameDay(AsDate(v, parseDate).value, today)
  }

  function ApprovedWorkOn(today: Instant, parseDate: string -> Option<Instant>): Obj -> bool
  {
    (p: Obj) => Get(p, "status") == Str("approved") && WorkOnDay(Get(p, "workDate"), today, parseDate)
  }

  datatype DashboardStats = DashboardStats(activePermits: nat, pendingPermits: nat,
                                           approvedToday: nat, expiringToday: nat)

  /** The order-preserving facts the history query relies on: a permit's
      first record stays first whatever is appended after it. */
  lemma CreatedRecordComesFirst(before: seq<HistoryEntry>, created: HistoryEntry, after: seq<HistoryEntry>)
    requires forall i :: 0 <= i < |before| ==> before[i].permitId != created.permitId
    ensures var r := Filter(before + [created] + after, OfPermit(created.permitId));
            |r| > 0 && r[0] == created
  {
    var all := before + [created] + after;
    var keep := OfPermit(created.permitId);
    FilterKeepsNone(before, keep);
    assert all[..|before| + 1] == before + [created];
    FilterPrefix(all, |before| + 1, keep);
    FilterSnoc(before, created, keep);
  }

  /** Going from `before` to `after`, the history of `entry`'s permit
      gains exactly `entry` at its end and every other permit's history
      stays as it was. */
  ghost predicate ExtendsEachHistory(before: seq<HistoryEntry>, after: seq<HistoryEntry>, entry: HistoryEntry)
  {
    forall pid :: Filter(after, OfPermit(pid)) ==
                  Filter(before, OfPermit(pid)) + (if entry.permitId == pid then [entry] else [])
  }

  // --------------------------------------------------------------- store

  class LocalStorage {
    var permits: seq<Obj>
    var history: seq<HistoryEntry>
    /** The year in which each permit's number was allocated. */
    ghost var years: seq<nat>

    /** One allocation per permit, and every permit carries its last
        update time. */
    ghost predicate Valid()
      reads this
    {
      |years| == |permits| &&
      forall i :: 0 <= i < |permits| ==> Get(permits[i], "updatedAt").Stamp?
    }

    constructor ()
      ensures Valid()
      ensures permits == [] && history == [] && years == []
    {
      permits, history, years := [], [], [];
    }

    /** `generatePermitNumber`: the year of `now`, then the total number of
        permits plus one; never one already handed out. */
    method GeneratePermitNumber(now: Instant) returns (number: string)
      requires Valid()
      ensures number == PermitNumber(now.year, |permits| + 1)
      ensures number !in AllocatedNumbers(years)
    {
      NextNumberIsFresh(years, now.year);
      number := PermitNumber(now.year, |permits| + 1);
    }

    /** `addPermitHistory`: appends one record, nothing else changes. */
    method AddPermitHistory(input: HistoryInput, id: string, now: Instant) returns (entry: HistoryEntry)
      modifies this
      ensures entry == HistoryEntry(id, input.permitId, input.action, input.performedBy, input.comments, now)
      ensures history == old(history) + [entry]
      ensures permits == old(permits) && years == old(years)
      ensures ExtendsEachHistory(old(history), history, entry)
    {
      entry := HistoryEntry(id, input.permitId, input.action, input.performedBy, input.comments, now);
      history := history + [entry];
      forall pid
        ensures Filter(history, OfPermit(pid)) ==
                Filter(old(history), OfPermit(pid)) + (if entry.permitId == pid then [entry] else [])
      {
        FilterSnoc(old(history), entry, OfPermit(pid));
      }
    }

    /** `createPermit`: appends exactly one permit, numbered by the
        allocator, and exactly one `created` record performed by its
        creator. */
    method CreatePermit(data: Obj, permitId: string, historyId: string, now: Instant) returns (permit: Obj)
      requires Valid()
      modifies this
      ensures Valid()
      ensures permit == NewPermit(data, permitId, PermitNumber(now.year, |old(permits)| + 1), now)
      ensures permits == old(permits) + [permit]
      ensures history == old(history) +
        [HistoryEntry(historyId, permitId, "created", Get(data, "createdBy"), Str("Permiso creado"), now)]
      ensures years == old(years) + [now.year]
      ensures AllocatedNumbers(years) == AllocatedNumbers(old(years)) + [PermitNumber(now.year, |old(permits)| + 1)]
    {
      var number := GeneratePermitNumber(now);
      permit := NewPermit(data, permitId, number, now);
      AllocatedNumbersSnoc(years, now.year);
      permits := permits + [permit];
      years := years + [now.year];
      var _ := AddPermitHistory(HistoryInput(permitId, "created", Get(permit, "createdBy"), Str("Permiso creado")),
                                historyId, now);
    }

    /** `getPermit`: the first permit with that id. */
    function GetPermit(id: string): (r: Option<Obj>)
      reads this
      ensures r == None <==> forall i :: 0 <= i < |permits| ==> Get(permits[i], "id") != Str(id)
      ensures r != None ==> r == Some(permits[FindPermit(permits, id)])
    {
      var k := FindPermit(permits, id);
      if k < |permits| then Some(permits[k]) else None
    }

    /** `updatePermit`: an unknown id fails with "Permit not found" and
        changes nothing; otherwise the first permit with that id takes the
        updates and a new update time, and nothing else changes. */
    method UpdatePermit(id: string, updates: Obj, now: Instant) returns (r: Result<Obj>)
      requires Valid()
      modifies this
      ensures Valid()
      ensures history == old(history) && years == old(years) && |permits| == |old(permits)|
      ensures FindPermit(old(permits), id) == |old(permits)| ==>
        r == Failure("Permit not found") && permits == old(permits)
      ensures FindPermit(old(permits), id) < |old(permits)| ==>
        var k := FindPermit(old(permits), id);
        r == Success(Merged(old(permits)[k], updates, now)) &&
        permits == old(permits)[k := Merged(old(permits)[k], updates, now)]
    {
      var k := FindPermit(permits, id);
      if k == |permits| {
        return Failure("Permit not found");
      }
      var updated := Merged(permits[k], updates, now);
      permits := permits[k := updated];
      r := Success(updated);
    }

    /** `getPermits`: the permits matching every given filter, in store
        order; no filters give every permit. */
    function GetPermits(filters: Filters): (r: seq<Obj>)
      reads this
      ensures forall i :: 0 <= i < |r| ==> r[i] in permits && Matches(r[i], filters)
      ensures forall i :: 0 <= i < |permits| && Matches(permits[i], filters) ==> permits[i] in r
      ensures filters == NoFilters ==> r == permits
    {
      var r := Filter(permits, Matching(filters));
      if filters == NoFilters then FilterKeepsAll(permits, Matching(filters)); r else r
    }

    /** `getPermitHistory`: that permit's records, in insertion order. */
    function GetPermitHistory(permitId: string): (r: seq<HistoryEntry>)
      reads this
      ensures forall i :: 0 <= i < |r| ==> r[i] in history && r[i].permitId == permitId
      ensures forall i :: 0 <= i < |history| && history[i].permitId == permitId ==> history[i] in r
    {
      Filter(history, OfPermit(permitId))
    }

    /** `getDashboardStats`: approved permits are the active ones, the two
        pending statuses together are the pending ones; the two "today"
        counts are among the approved permits. */
    function GetDashboardStats(today: Instant, parseDate: string -> Option<Instant>): (s: DashboardStats)
      reads this
      ensures s.activePermits == |Filter(permits, WithStatus("approved"))|
      ensures s.pendingPermits == |Filter(permits, WithStatus("pending_validation"))| +
                                  |Filter(permits, WithStatus("pending_approval"))|
      ensures s.approvedToday == |Filter(permits, ApprovedOn(today))|
      ensures s.expiringToday == |Filter(permits, ApprovedWorkOn(today, parseDate))|
      ensures forall p :: p in Filter(permits, ApprovedOn(today)) <==>
        p in permits && Get(p, "status") == Str("approved") && OnDay(Get(p, "updatedAt"), today)
      ensures forall p :: p in Filter(permits, ApprovedWorkOn(today, parseDate)) <==>
        p in permits && Get(p, "status") == Str("approved") &&
        ((Get(p, "workDate").Stamp? && SameDay(Get(p, "workDate").at, today)) ||
         (Get(p, "workDate").Str? && Get(p, "workDate").s != "" &&
          parseDate(Get(p, "workDate").s).Some? && SameDay(parseDate(Get(p, "workDate").s).value, today)))
      ensures s.approvedToday <= s.activePermits && s.expiringToday <= s.activePermits
      ensures s.activePermits + s.pendingPermits <= |permits|
    {
      var pending := (p: Obj) => WithStatus("pending_validation")(p) || WithStatus("pending_approval")(p);
      FilterSplit(permits, WithStatus("pending_validation"), WithStatus("pending_approval"), pending);
      FilterMonotone(permits, ApprovedOn(today), WithStatus("approved"));
      FilterMonotone(permits, ApprovedWorkOn(today, parseDate), WithStatus("approved"));
      FilterDisjoint(permits, WithStatus("approved"), pending);
      DashboardStats(|Filter(permits, WithStatus("approved"))|,
                     |Filter(permits, pending)|,
                     |Filter(permits, ApprovedOn(today))|,
                     |Filter(permits, ApprovedWorkOn(today, parseDate))|)
    }
  }

  /** A matching permit appears in `getPermits` at the position given by
      how many matching permits precede it, and every position of the
      result is such a rank: the query keeps store order and holds each
      match exactly once. */
  lemma GetPermitsKeepsOrder(store: LocalStorage, f: Filters, j: nat)
    requires j < |store.permits| && Matches(store.permits[j], f)
    ensures var before := |Filter(store.permits[..j], Matching(f))|;
            before < |store.GetPermits(f)| && store.GetPermits(f)[before] == store.permits[j]
    ensures forall i: nat :: i < |store.GetPermits(f)| ==> RankedAt(store.permits, Matching(f), i)
    ensures forall k :: j < k <= |store.permits| ==>
      |Filter(store.permits[..j], Matching(f))| < |Filter(store.permits[..k], Matching(f))|
  {
    var r := store.GetPermits(f);
    assert r == Filter(store.permits, Matching(f));
    AllFilterPositions(store.permits, Matching(f));
    AllFilterRanks(store.permits, Matching(f));
    AllFilterRanksIncrease(store.permits, Matching(f));
  }

  /** `getPermitHistory` is that permit's records in insertion order, each
      exactly once: every record of the permit sits at its rank among the
      permit's records, every position of the result is such a rank, and
      ranks strictly increase along the history. */
  lemma GetPermitHistoryKeepsOrder(store: LocalStorage, permitId: string)
    ensures forall j :: 0 <= j < |store.history| && store.history[j].permitId == permitId ==>
      |Filter(store.history[..j], OfPermit(permitId))| < |store.GetPermitHistory(permitId)| &&
      store.GetPermitHistory(permitId)[|Filter(store.history[..j], OfPermit(permitId))|] == store.history[j]
    ensures forall i: nat :: i < |store.GetPermitHistory(permitId)| ==> RankedAt(store.history, OfPermit(permitId), i)
    ensures forall j, k :: 0 <= j < k <= |store.history| && store.history[j].permitId == permitId ==>
      |Filter(store.history[..j], OfPermit(permitId))| < |Filter(store.history[..k], OfPermit(permitId))|
  {
    assert store.GetPermitHistory(permitId) == Filter(store.history, OfPermit(permitId));
    AllFilterPositions(store.history, OfPermit(permitId));
    AllFilterRanks(store.history, OfPermit(permitId));
    AllFilterRanksIncrease(store.history, OfPermit(permitId));
  }

  /** After a permit is created under an id no earlier record used, its
      history starts with the `created` record, whatever is appended next. */
  lemma HistoryStartsWithCreated(store: LocalStorage, created: HistoryEntry, k: nat)
    requires k < |store.history| && store.history[k] == created
    requires forall i :: 0 <= i < k ==> store.history[i].permitId != created.permitId
    ensures |store.GetPermitHistory(created.permitId)| > 0
    ensures store.GetPermitHistory(created.permitId)[0] == created
  {
    assert store.history == store.history[..k] + [created] + store.history[k + 1..];
    CreatedRecordComesFirst(store.history[..k], created, store.history[k + 1..]);
  }
}

=== FILE: permit_types.dfy ===
/** The client's table of the three permit forms (title, form code, icon,
    colour, safety checklist and personal protective equipment) and the
    lookup that falls back to the excavation form. */
module PermitTypes {
  import Schema

  datatype PermitTypeConfig = PermitTypeConfig(
    title: string, subtitle: string, icon: string, color: string,
    checklist: seq<string>, ppe: seq<string>)

  const ExcavationChecklist: seq<string> := [
    "¿Existe el análisis de riesgos y el procedimiento específico para el trabajo a ser realizado?",
    "¿Se ha determinado la clasificación del tipo de suelo a excavar?",
    "¿Se ha verificado que no existan grietas o desprendimientos de material en paredes?",
    "¿Se identificaron fuentes de vibración que afecten la estabilidad de capas excavadas?",
    "¿Se cuenta con señalización adecuada para vehículos y peatones en el área de la excavación?",
    "¿Se ha verificado que no existirá posibilidad de daño a otros servicios bajo tierra?",
    "¿Se ha utilizado algún medio de detección o localización de servicios enterrados?",
    "¿Se dispone de los planos o diagramas de los servicios enterrados (as built)?",
    "¿Se ha establecido la distancia entre el borde de excavación y el tráfico vehicular y peatonal?",
    "¿Se dispone de apuntalamiento o entibado para excavaciones mayores a 1.50 metros?",
    "¿Se realizó una acometida o excavación tipo talud según el tipo de suelo?",
    "¿Se dispone de protección adecuada para excavaciones mayores a 6 metros de profundidad?",
    "¿Se dispone de bomba para remoción de agua?",
    "¿Se autoriza pasos peatonales o tablas de arrastre para cruces de la excavación?",
    "¿Se dispone de extintores portátiles en el sitio de trabajo?",
    "¿Se requiere resguardo contra incendio, y si es así, está asignado?",
    "¿Existe arnés corporal y línea de vida al trabajar cerca de excavaciones > 1,80 mts?",
    "¿Se dispone de equipo de emergencia para recuperación (tabla, collarín, férula) y rescate?",
    "¿Se ha verificado suficiente cantidad de oxígeno en excavaciones mayores de 1.20 metros?",
    "¿Se dispone de medios de escape (escaleras) a distancias no mayores a 7.50 metros?",
    "¿Ha habido prueba de atmósferas tóxicas o peligrosas?",
    "¿El equipo pesado a utilizar fue revisado y validado en su funcionamiento?",
    "¿El personal está capacitado / certificado para realizar el trabajo?",
    "¿Se realizó la reunión inicial o inducción básica de seguridad del trabajo?",
    "¿El personal que ejecutará los trabajos tuvo un descanso adecuado (aprox. 8 horas)?"
  ]

  const ExcavationPpe: seq<string> := [
    "Casco y barbiquejo",
    "Gafas de seguridad",
    "Protector auditivo",
    "Ropa de trabajo",
    "Guantes (Cuero/pigmentados)",
    "Botas de seguridad",
    "Protector facial",
    "Máscara filtrante (mascarilla)",
    "Botas de seguridad p/ agua",
    "Arnés de cuerpo c/ línea"
  ]

  const ExcavationConfig := PermitTypeConfig(
    "Permiso de Trabajo para Excavación",
    "FS.019 R8 - COPIA NO CONTROLADA",
    "shovel", "purple", ExcavationChecklist, ExcavationPpe)

  const HotChecklist: seq<string> := [
    "¿Existe el análisis de riesgos y el procedimiento específico para el trabajo a ser realizado?",
    "¿Las válvulas han sido correctamente cerradas, señalizadas, etiquetadas y con candado para aislar el sistema?",
    "¿Ha sido bloqueado, etiquetado y se ha probado el arranque del circuito eléctrico correcto?",
    "¿El equipo eléctrico a ser usado dispone de aterramiento?",
    "¿Las herramientas manuales y automáticas fueron revisadas y verificadas previo al uso?",
    "¿Los equipos especializados (grúas, tecles, fajas, cadenas, aparejos, inspección, etc.) fueron verificados previamente?",
    "¿El sistema (equipo, recipiente, ducto) ha sido despresurizado, drenado y venteado?",
    "¿El sistema (equipo, recipiente, ducto) ha sido lavado a vapor o con agua (detergente)?",
    "¿El sistema (equipo, recipiente, ducto) ha sido purgado inertizado con nitrógeno?",
    "¿Está el sistema (equipo, recipiente, ducto) limpio y libre de material inflamable?",
    "¿Han sido reconocidas y tapadas las alcantarillas, excavaciones, drenajes, etc.?",
    "¿Se ha reducido la presión del sistema (equipo, recipiente, ducto) a intervenir?",
    "¿Se identificó el producto en el sistema (equipo, recipiente, ducto) a reparar?",
    "¿Se verificó que todos los sistemas sensibles han sido inhibidos o desconectados?",
    "¿Se realizó medición de espesores (soldadura, arenado)?",
    "¿El equipo de suministro de aire para arenador dispone de filtro de respiración aprobado?",
    "¿Los cilindros de gas inflamable / comprimidos disponen de arresta llamas?",
    "¿Se requiere personal de resguardo especializado contra incendio, y si es así, está asignado?",
    "¿Se dispone de extintores portátiles en el sitio de trabajo?",
    "¿Se realizó prueba de atmósferas tóxicas o peligrosas (CO y LEL) con detector?",
    "¿La operación ha sido comunicada a Sala de Control?",
    "¿Se dispone de dispositivos de protección y sombra de luz solar en el área de soldadura?",
    "¿Se dispone del equipo contra quemaduras (waterjel, sabanas, etc.)?",
    "¿El personal está capacitado / certificado para realizar el trabajo?",
    "¿Se realizó la reunión inicial o inducción básica de seguridad del trabajo?",
    "¿Se verificó que durante tareas de soldadura al arco no existan equipos sensibles a inducción?",
    "¿El personal que ejecutará los trabajos tuvo un descanso adecuado (aprox. 8 horas)?"
  ]

  const HotPpe: seq<string> := [
    "Casco y barbiquejo",
    "Gafas de seguridad",
    "Protector auditivo",
    "Ropa de trabajo",
    "Guantes (Cuero/pigmentados)",
    "Botas de seguridad",
    "Protector facial",
    "Máscara filtrante (mascarilla)",
    "Delantal soldadura",
    "Polainas p/ amolador"
  ]

  const HotConfig := PermitTypeConfig(
    "Permiso de Trabajo en Caliente",
    "FS.020 R10 - COPIA NO CONTROLADA",
    "fire", "yellow", HotChecklist, HotPpe)

  const ColdChecklist: seq<string> := [
    "¿Existe el análisis de riesgos y el procedimiento específico para el trabajo a ser realizado?",
    "¿Las válvulas han sido correctamente cerradas, señalizadas, etiquetadas y con candado para aislar el sistema?",
    "¿El sistema (equipo, recipiente, ducto) ha sido despresurizado, drenado y venteado?",
    "¿Ha sido bloqueado, etiquetado y se ha probado el arranque del circuito eléctrico correcto?",
    "¿Se verificó que todos los sistemas sensibles han sido inhibidos o desconectados?",
    "¿El equipo eléctrico a ser usado/intervenido dispone de aterramiento o disyuntor diferencial?",
    "¿Las herramientas manuales y automáticas fueron revisadas y verificadas previo al uso?",
    "¿Las herramientas de golpe a ser utilizadas son anti-chispas (bronce, goma, aluminio, etc.)?",
    "¿Los equipos especializados fueron previamente verificados?",
    "¿Los productos de limpieza a ser utilizados no son inflamables?",
    "¿Se dispone de la ventilación y temperatura apropiada en lugares donde se utilizan solventes?",
    "¿Se identificó (HDSM) el producto en el sistema a reparar?",
    "¿Se requiere remoción y manipulación de materiales peligrosos (asbestos, fibra de vidrio, etc.)?",
    "¿Se realizó prueba de atmósferas tóxicas o peligrosas (CO, H2S, O2 y LEL) con detector?",
    "¿Habrá emisión de gas durante el trabajo?",
    "¿Están disponibles los extintores portátiles en el sitio de trabajo?",
    "¿El personal está capacitado / certificado para realizar el trabajo?",
    "¿Se realizó la reunión inicial o inducción básica de seguridad del trabajo?",
    "¿Se verificó la no existencia de cables energizados en cercanías del lugar de trabajo?",
    "¿Existe un banderillero o ayudante obligatorio (guía) cuando se trabaja con equipo de Izaje?",
    "¿El personal que ejecutará los trabajos tuvo un descanso adecuado (aprox. 8 horas)?"
  ]

  const ColdPpe: seq<string> := [
    "Casco / barbiquejo requerido para trabajos en altura",
    "Gafas de seguridad",
    "Protector auditivo",
    "Ropa de trabajo",
    "Guantes (Cuero/pigmentados/Precisión)",
    "Botas de seguridad",
    "Protector facial y gafas antiparras",
    "Máscara filtrante / Respirador",
    "Delantal químico",
    "Equipo de Bioseguridad"
  ]

  const ColdConfig := PermitTypeConfig(
    "Permiso de Trabajo en Frío",
    "FS.021 R11 - COPIA NO CONTROLADA",
    "wrench", "cyan", ColdChecklist, ColdPpe)

  /** `permitTypes`, keyed by the schema's type names. */
  const PermitTypeTable: map<string, PermitTypeConfig> := map[
    "excavation" := ExcavationConfig,
    "hot" := HotConfig,
    "cold" := ColdConfig
  ]

  /** The form of a schema permit type. */
  function ConfigOf(t: Schema.PermitType): PermitTypeConfig
  {
    match t
    case Excavation => ExcavationConfig
    case Hot => HotConfig
    case Cold => ColdConfig
  }

  /** `getPermitTypeConfig`: the form of a known type, the excavation form
      for any other string. */
  function GetPermitTypeConfig(typeName: string): (c: PermitTypeConfig)
    ensures Schema.ParseType(typeName).Some? ==> c == ConfigOf(Schema.ParseType(typeName).value)
    ensures Schema.ParseType(typeName).None? ==> c == ExcavationConfig
    ensures |c.ppe| == 10
  {
    if typeName in PermitTypeTable then PermitTypeTable[typeName] else PermitTypeTable["excavation"]
  }

  /** The table holds exactly the three schema types, each under its own
      name. */
  lemma TableKeysAreTheTypes(s: string, t: Schema.PermitType)
    ensures s in PermitTypeTable <==> Schema.ParseType(s).Some?
    ensures PermitTypeTable[Schema.TypeName(t)] == ConfigOf(t)
  {
  }

  /** Checklist lengths 25, 27 and 21; ten protective items per form. */
  lemma ListSizes(t: Schema.PermitType)
    ensures |ExcavationConfig.checklist| == 25
    ensures |HotConfig.checklist| == 27
    ensures |ColdConfig.checklist| == 21
    ensures |ConfigOf(t).ppe| == 10
  {
  }

  /** Every form opens with the risk-analysis question and closes with the
      rest question, and the three forms have different titles. */
  lemma FormsShareFirstAndLastQuestion(t: Schema.PermitType, u: Schema.PermitType)
    ensures ConfigOf(t).checklist[0] == ExcavationChecklist[0]
    ensures ConfigOf(t).checklist[|ConfigOf(t).checklist| - 1] == ExcavationChecklist[24]
    ensures ConfigOf(t).title == ConfigOf(u).title ==> t == u
  {
  }
}

=== FILE: role_badge.dfy ===
/** The role badge: the Spanish caption and colour classes shown for a
    user's role. */
module RoleBadge {
  import Schema

  datatype RoleConfig = RoleConfig(caption: string, className: string)

  /** The badge of each schema role. */
  function ConfigOf(r: Schema.Role): RoleConfig
  {
    match r
    case Admin => RoleConfig("Administrador", "bg-purple-100 text-purple-800")
    case Supervisor => RoleConfig("Supervisor", "bg-blue-100 text-blue-800")
    case User => RoleConfig("Usuario", "bg-green-100 text-green-800")
    case Operator => RoleConfig("Operador", "bg-orange-100 text-orange-800")
  }

  /** The badge table, keyed by role name. */
  const RoleConfigs: map<string, RoleConfig> := map[
    "admin" := ConfigOf(Schema.Admin),
    "supervisor" := ConfigOf(Schema.Supervisor),
    "user" := ConfigOf(Schema.User),
    "operator" := ConfigOf(Schema.Operator)
  ]

  /** `getRoleConfig`: the badge of a known role, the `user` badge for any
      other string. */
  function GetRoleConfig(role: string): (c: RoleConfig)
    ensures Schema.ParseRole(role).Some? ==> c == ConfigOf(Schema.ParseRole(role).value)
    ensures Schema.ParseRole(role).None? ==> c == ConfigOf(Schema.DefaultRole)
  {
    if role in RoleConfigs then RoleConfigs[role] else RoleConfigs["user"]
  }

  /** The four roles are told apart by their captions, and an unknown role
      is shown as an ordinary user. */
  lemma CaptionsIdentifyRoles(r1: Schema.Role, r2: Schema.Role, other: string)
    requires Schema.ParseRole(other).None?
    ensures GetRoleConfig(Schema.RoleName(r1)).caption == GetRoleConfig(Schema.RoleName(r2)).caption ==> r1 == r2
    ensures GetRoleConfig(Schema.RoleName(Schema.Admin)).caption == "Administrador"
    ensures GetRoleConfig(Schema.RoleName(Schema.Supervisor)).caption == "Supervisor"
    ensures GetRoleConfig(Schema.RoleName(Schema.User)).caption == "Usuario"
    ensures GetRoleConfig(Schema.RoleName(Schema.Operator)).caption == "Operador"
    ensures GetRoleConfig(other) == GetRoleConfig("user")
  {
  }
}

=== FILE: routes.dfy ===
/** The store-mutating part of the permit endpoints of server/routes.ts.
    Stripped of HTTP and sessions, each workflow endpoint is one
    `updatePermit` followed by one `addPermitHistory`; which fields it sets,
    which status it writes and which history action it records depend only
    on the request, never on the permit's current status or the caller's
    role. */
module Routes {
  import opened JsValues
  import opened PermitStore
  import Schema

  /** A workflow request on an existing permit, with the body fields each
      endpoint reads. `approved` is the raw body value; the handlers test
      its truthiness. */
  datatype Action =
    | Patch(body: Obj)
    | SubmitForValidation(validatorId: Value, comments: Value)
    | Validate(approved: Value, comments: Value)
    | Approve(approved: Value, comments: Value)
    | Close(comments: Value)

  /** The update object each endpoint hands to `updatePermit`. */
  function Updates(a: Action, userId: string): Obj
  {
    match a
    case Patch(body) => body
    case SubmitForValidation(validatorId, comments) =>
      var base := map["status" := Str("pending_validation"), "validationComments" := comments];
      if Truthy(validatorId) then base["validatedBy" := validatorId] else base
    case Validate(approved, comments) =>
      map["status" := Str(if Truthy(approved) then "pending_approval" else "rejected"),
          "validationComments" := comments]
    case Approve(approved, comments) =>
      map["status" := Str(if Truthy(approved) then "approved" else "rejected"),
          "approvedBy" := Str(userId), "approvalComments" := comments]
    case Close(comments) =>
      map["status" := Str("closed"), "approvalComments" := comments]
  }

  /** The history record each endpoint appends after a successful update. */
  function Record(a: Action, permitId: string, userId: string): HistoryInput
  {
    match a
    case Patch(body) =>
      HistoryInput(permitId, "updated", Str(userId), Or(Get(body, "comments"), Str("Permiso actualizado")))
    case SubmitForValidation(_, comments) =>
      HistoryInput(permitId, "submitted_for_validation", Str(userId), Or(comments, Str("Enviado para validación")))
    case Validate(approved, comments) =>
      HistoryInput(permitId, if Truthy(approved) then "validated" else "rejected_by_validator", Str(userId), comments)
    case Approve(approved, comments) =>
      HistoryInput(permitId, if Truthy(approved) then "approved" else "rejected_by_supervisor", Str(userId), comments)
    case Close(comments) =>
      HistoryInput(permitId, "closed", Str(userId), Or(comments, Str("Permiso cerrado")))
  }

  /** The workflow as a state machine on the status alone: the status a
      permit has after the action, given the one it had. */
  function StatusAfter(a: Action, prior: Value): Value
  {
    match a
    case Patch(body) => if "status" in body then body["status"] else prior
    case SubmitForValidation(_, _) => Str(Schema.StatusName(Schema.PendingValidation))
    case Validate(approved, _) =>
      if Truthy(approved) then Str(Schema.StatusName(Schema.PendingApproval))
      else Str(Schema.StatusName(Schema.Rejected))
    case Approve(approved, _) =>
      if Truthy(approved) then Str(Schema.StatusName(Schema.Approved))
      else Str(Schema.StatusName(Schema.Rejected))
    case Close(_) => Str("closed")
  }

  /** The permit after the endpoint's update. */
  function After(a: Action, prior: Obj, userId: string, now: Instant): Obj
  {
    Merged(prior, Updates(a, userId), now)
  }

  /** The stored status after an endpoint is the state machine's. */
  lemma StatusFollowsStateMachine(a: Action, prior: Obj, userId: string, now: Instant)
    ensures Get(After(a, prior, userId, now), "status") == StatusAfter(a, Get(prior, "status"))
  {
  }

  /** Only the PATCH endpoint's outcome depends on the prior status: every
      other endpoint writes its status unconditionally, so for instance a
      rejection yields `rejected` from any status, and closing works from
      any status. */
  lemma WorkflowIgnoresPriorStatus(a: Action, s1: Value, s2: Value)
    requires !a.Patch?
    ensures StatusAfter(a, s1) == StatusAfter(a, s2)
    ensures a.Validate? && !Truthy(a.approved) ==> StatusAfter(a, s1) == Str("rejected")
    ensures a.Approve? && !Truthy(a.approved) ==> StatusAfter(a, s1) == Str("rejected")
    ensures a.Close? ==> StatusAfter(a, s1) == Str("closed")
  {
  }

  /** The keys a workflow endpoint other than PATCH may write. */
  const WorkflowKeys: set<string> :=
    {"status", "validationComments", "validatedBy", "approvedBy", "approvalComments", "updatedAt"}

  /** A workflow endpoint other than PATCH never touches any other field:
      in particular the id, the permit number and the creator stay. */
  lemma WorkflowTouchesOnlyItsKeys(a: Action, prior: Obj, userId: string, now: Instant, k: string)
    requires !a.Patch? && k !in WorkflowKeys
    ensures Get(After(a, prior, userId, now), k) == Get(prior, k)
  {
  }

  /** submit-for-validation: the status becomes `pending_validation`, the
      comments become the validation comments, the validator is set only
      when a truthy validator id is given, and the record's comment falls
      back to "Enviado para validación". */
  lemma SubmitOutcome(prior: Obj, validatorId: Value, comments: Value, permitId: string, userId: string, now: Instant)
    ensures var p := After(SubmitForValidation(validatorId, comments), prior, userId, now);
      Get(p, "status") == Str("pending_validation") &&
      Get(p, "validationComments") == comments &&
      Get(p, "validatedBy") == (if Truthy(validatorId) then validatorId else Get(prior, "validatedBy"))
    ensures Record(SubmitForValidation(validatorId, comments), permitId, userId) ==
      HistoryInput(permitId, "submitted_for_validation", Str(userId),
                   if Truthy(comments) then comments else Str("Enviado para validación"))
  {
  }

  /** validate: the approval flag alone picks `pending_approval` and
      `validated`, or `rejected` and `rejected_by_validator`; the record is
      the acting user's, with the raw comments and no default. */
  lemma ValidateOutcome(prior: Obj, approved: Value, comments: Value, permitId: string, userId: string, now: Instant)
    ensures var p := After(Validate(approved, comments), prior, userId, now);
      Get(p, "status") == Str(if Truthy(approved) then "pending_approval" else "rejected") &&
      Get(p, "validationComments") == comments
    ensures Record(Validate(approved, comments), permitId, userId) ==
      HistoryInput(permitId, if Truthy(approved) then "validated" else "rejected_by_validator",
                   Str(userId), comments)
  {
  }

  /** approve: `approved`/`approved` or `rejected`/`rejected_by_supervisor`,
      and the acting user becomes the approver either way; the record is
      the acting user's, with the raw comments and no default. */
  lemma ApproveOutcome(prior: Obj, approved: Value, comments: Value, permitId: string, userId: string, now: Instant)
    ensures var p := After(Approve(approved, comments), prior, userId, now);
      Get(p, "status") == Str(if Truthy(approved) then "approved" else "rejected") &&
      Get(p, "approvedBy") == Str(userId) && Get(p, "approvalComments") == comments
    ensures Record(Approve(approved, comments), permitId, userId) ==
      HistoryInput(permitId, if Truthy(approved) then "approved" else "rejected_by_supervisor",
                   Str(userId), comments)
  {
  }

  /** close: status `closed` from any status, record `closed` with the
      comment falling back to "Permiso cerrado". */
  lemma CloseOutcome(prior: Obj, comments: Value, permitId: string, userId: string, now: Instant)
    ensures Get(After(Close(comments), prior, userId, now), "status") == Str("closed")
    ensures Schema.ParseStatus("closed") == None
    ensures Record(Close(comments), permitId, userId) ==
      HistoryInput(permitId, "closed", Str(userId), if Truthy(comments) then comments else Str("Permiso cerrado"))
  {
  }

  /** PATCH applies the body verbatim, even to the id, the permit number or
      the status; only the update time is the server's. Its record is
      `updated` by the session user, with the body's comments or
      "Permiso actualizado". */
  lemma PatchIsVerbatim(prior: Obj, body: Obj, permitId: string, userId: string, now: Instant, k: string)
    requires k != "updatedAt"
    ensures Get(After(Patch(body), prior, userId, now), k) == if k in body then body[k] else Get(prior, k)
    ensures Get(After(Patch(body), prior, userId, now), "updatedAt") == Stamp(now)
    ensures Record(Patch(body), permitId, userId) ==
      HistoryInput(permitId, "updated", Str(userId),
                   if Truthy(Get(body, "comments")) then Get(body, "comments") else Str("Permiso actualizado"))
  {
  }

  /** One workflow endpoint: update the permit, then append one record.
      An unknown id fails in the update, before any record is appended,
      and leaves the store as it was. */
  method Perform(store: LocalStorage, permitId: string, userId: string, a: Action, historyId: string, now: Instant)
    returns (r: Result<Obj>)
    requires store.Valid()
    modifies store
    ensures store.Valid() && store.years == old(store.years)
    ensures FindPermit(old(store.permits), permitId) == |old(store.permits)| ==>
      r == Failure("Permit not found") &&
      store.permits == old(store.permits) && store.history == old(store.history)
    ensures FindPermit(old(store.permits), permitId) < |old(store.permits)| ==>
      var k := FindPermit(old(store.permits), permitId);
      var rec := Record(a, permitId, userId);
      r == Success(After(a, old(store.permits)[k], userId, now)) &&
      store.permits == old(store.permits)[k := After(a, old(store.permits)[k], userId, now)] &&
      store.history == old(store.history) +
        [HistoryEntry(historyId, permitId, rec.action, rec.performedBy, rec.comments, now)]
  {
    r := store.UpdatePermit(permitId, Updates(a, userId), now);
    if r.Failure? {
      return;
    }
    var _ := store.AddPermitHistory(Record(a, permitId, userId), historyId, now);
  }

  /** The object the create endpoint validates: the body with the creator
      forced to the session user and the status forced to `draft`. */
  function CreateInput(body: Obj, userId: string): Obj
  {
    Assign(body, map["createdBy" := Str(userId), "status" := Str("draft")])
  }

  /** Whatever the body says, a created permit is a draft of the session
      user and carries the number the store allocated. */
  lemma CreatedIsCallersDraft(body: Obj, userId: string, workDay: Instant, permitId: string, number: string, now: Instant)
    ensures Get(Schema.InsertOutput(CreateInput(body, userId), workDay), "createdBy") == Str(userId)
    ensures var p := NewPermit(Schema.InsertOutput(CreateInput(body, userId), workDay), permitId, number, now);
      Get(p, "status") == Str("draft") && Get(p, "createdBy") == Str(userId) &&
      Get(p, "permitNumber") == Str(number) && Get(p, "id") == Str(permitId)
  {
    var input := CreateInput(body, userId);
    assert Schema.IsInsertKey("createdBy") && Schema.IsInsertKey("status");
    assert input["status"] == Str("draft");
  }

  /** POST /api/permits: a validation error leaves the store untouched;
      otherwise exactly one permit and one `created` record by the session
      user are appended. */
  method CreatePermitRoute(store: LocalStorage, userId: string, body: Obj, workDay: Instant,
                           permitId: string, historyId: string, now: Instant)
    returns (r: Result<Obj>)
    requires store.Valid()
    modifies store
    ensures store.Valid()
    ensures !Schema.InsertAccepts(CreateInput(body, userId)) ==>
      r == Failure("Validation error") &&
      store.permits == old(store.permits) && store.history == old(store.history) &&
      store.years == old(store.years)
    ensures Schema.InsertAccepts(CreateInput(body, userId)) ==>
      var p := NewPermit(Schema.InsertOutput(CreateInput(body, userId), workDay), permitId,
                         PermitNumber(now.year, |old(store.permits)| + 1), now);
      r == Success(p) &&
      store.permits == old(store.permits) + [p] &&
      store.history == old(store.history) +
        [HistoryEntry(historyId, permitId, "created", Str(userId), Str("Permiso creado"), now)] &&
      store.years == old(store.years) + [now.year]
  {
    var parsed := Schema.ParseInsertPermit(CreateInput(body, userId), workDay);
    if parsed.Failure? {
      return Failure(parsed.error);
    }
    ghost var data := Schema.InsertOutput(CreateInput(body, userId), workDay);
    assert parsed.value == data;
    CreatedIsCallersDraft(body, userId, workDay, permitId, PermitNumber(now.year, |store.permits| + 1), now);
    assert Get(data, "createdBy") == Str(userId);
    var permit := store.CreatePermit(parsed.value, permitId, historyId, now);
    r := Success(permit);
  }
}

=== FILE: schema.dfy ===
/** The shared schema: the enumerations of permit type, permit status and
    user role, the columns of the permits table, what the insert schema
    accepts and keeps, and the basic-information validation rules. */
module Schema {
  import opened JsValues
  import Decimal

  // ---------------------------------------------------------------- enums

  datatype PermitType = Excavation | Hot | Cold

  function TypeName(t: PermitType): string
  {
    match t
    case Excavation => "excavation"
    case Hot => "hot"
    case Cold => "cold"
  }

  function ParseType(s: string): (r: Option<PermitType>)
    ensures r.Some? ==> TypeName(r.value) == s
  {
    if s == "excavation" then Some(Excavation)
    else if s == "hot" then Some(Hot)
    else if s == "cold" then Some(Cold)
    else None
  }

  /** The six statuses the `status` column admits. `closed`, which the
      close action writes, is not one of them. */
  datatype PermitStatus = Draft | PendingValidation | PendingApproval | Approved | Rejected | Expired

  function StatusName(st: PermitStatus): string
  {
    match st
    case Draft => "draft"
    case PendingValidation => "pending_validation"
    case PendingApproval => "pending_approval"
    case Approved => "approved"
    case Rejected => "rejected"
    case Expired => "expired"
  }

  function ParseStatus(s: string): (r: Option<PermitStatus>)
    ensures r.Some? ==> StatusName(r.value) == s
  {
    if s == "draft" then Some(Draft)
    else if s == "pending_validation" then Some(PendingValidation)
    else if s == "pending_approval" then Some(PendingApproval)
    else if s == "approved" then Some(Approved)
    else if s == "rejected" then Some(Rejected)
    else if s == "expired" then Some(Expired)
    else None
  }

  const DefaultStatus: PermitStatus := Draft

  datatype Role = Admin | Supervisor | User | Operator

  function RoleName(r: Role): string
  {
    match r
    case Admin => "admin"
    case Supervisor => "supervisor"
    case User => "user"
    case Operator => "operator"
  }

  function ParseRole(s: string): (r: Option<Role>)
    ensures r.Some? ==> RoleName(r.value) == s
  {
    if s == "admin" then Some(Admin)
    else if s == "supervisor" then Some(Supervisor)
    else if s == "user" then Some(User)
    else if s == "operator" then Some(Operator)
    else None
  }

  const DefaultRole: Role := User

  /** Every enumeration value has a distinct name that parses back to it,
      and the status `closed` is outside the status enumeration. */
  lemma EnumRoundTrips(t: PermitType, st: PermitStatus, r: Role)
    ensures ParseType(TypeName(t)) == Some(t)
    ensures ParseStatus(StatusName(st)) == Some(st)
    ensures ParseRole(RoleName(r)) == Some(r)
    ensures ParseStatus("closed") == None
  {
  }

  /** The signed-in user as the client and the server see it; an empty
      string stands for a missing (null) name or email. */
  datatype UserRecord = UserRecord(id: string, email: string, firstName: string, lastName: string, role: string)

  /** `user?.id` on the client, where the user may not be loaded. */
  function IdOf(user: Option<UserRecord>): Value
  {
    if user.None? then Undefined else Str(user.value.id)
  }

  /** `user?.role`. */
  function RoleOf(user: Option<UserRecord>): Value
  {
    if user.None? then Undefined else Str(user.value.role)
  }

  // -------------------------------------------------------------- columns

  /** What kind of value a column of the permits table holds. */
  datatype Column = TextColumn | TimestampColumn | JsonColumn | TypeColumn | StatusColumn

  /** The columns of the permits table, by the key a permit object uses. */
  function PermitColumn(key: string): Option<Column>
  {
    if key in {"id", "permitNumber", "executorCompany", "stationDuct", "areaSite",
               "workOrderNumber", "workDescription", "validFrom", "validTo",
               "specialInstructions", "gasDetectionReading", "createdBy",
               "validatedBy", "approvedBy", "validationComments",
               "approvalComments", "rejectionReason"} then Some(TextColumn)
    else if key in {"workDate", "gasDetectionDate", "createdAt", "updatedAt"} then Some(TimestampColumn)
    else if key in {"checklistResponses", "ppeRequirements", "aptAnalysis", "photos"} then Some(JsonColumn)
    else if key == "type" then Some(TypeColumn)
    else if key == "status" then Some(StatusColumn)
    else None
  }

  /** The columns the insert schema leaves out: the server assigns them. */
  const InsertOmitted: set<string> := {"id", "permitNumber", "createdAt", "updatedAt"}

  predicate IsInsertKey(key: string)
  {
    PermitColumn(key).Some? && key !in InsertOmitted
  }

  /** Whether the insert schema accepts `v` for the (optional, nullable)
      column `key`; `type` and `workDate` are checked separately. */
  predicate AcceptsOptional(key: string, v: Value)
  {
    match PermitColumn(key)
    case None => true
    case Some(TextColumn) => v.Undefined? || v.Null? || v.Str?
    case Some(TimestampColumn) => v.Undefined? || v.Null? || v.Stamp?
    case Some(JsonColumn) => true
    case Some(TypeColumn) => true
    case Some(StatusColumn) => v.Undefined? || v.Null? || (v.Str? && ParseStatus(v.s).Some?)
  }

  /** Whether `insertPermitSchema` accepts `input`: `type` must be one of
      the three permit types, `workDate` must be a string (the extension
      replaces the column's date rule), every other insert column must hold
      a value of its kind. Unknown keys, and the four omitted columns, which
      the schema no longer knows, are stripped unchecked. */
  predicate InsertAccepts(input: Obj)
  {
    Get(input, "type").Str? && ParseType(Get(input, "type").s).Some? &&
    Get(input, "workDate").Str? &&
    forall k :: k in input && k != "workDate" && k !in InsertOmitted ==> AcceptsOptional(k, input[k])
  }

  /** What the insert schema hands on: only the insert columns, with the
      work date converted (the conversion is given as `workDay`). */
  function InsertOutput(input: Obj, workDay: Instant): (out: Obj)
    ensures forall k :: k in out <==> k == "workDate" || (k in input && IsInsertKey(k))
    ensures forall k :: k in out ==> IsInsertKey(k)
    ensures forall k :: k in input && IsInsertKey(k) && k != "workDate" ==> k in out && out[k] == input[k]
    ensures Get(out, "workDate") == Stamp(workDay)
  {
    var kept := map k | k in input && IsInsertKey(k) :: input[k];
    kept["workDate" := Stamp(workDay)]
  }

  /** `insertPermitSchema.parse(input)`: a validation error, or the
      accepted input reduced to the insert columns. */
  function ParseInsertPermit(input: Obj, workDay: Instant): (r: Result<Obj>)
    ensures r.Success? <==> InsertAccepts(input)
    ensures r.Success? ==> forall k :: k in InsertOmitted ==> k !in r.value
    ensures r.Success? ==> Get(r.value, "type").Str? && ParseType(Get(r.value, "type").s).Some?
    ensures r.Success? ==> Get(r.value, "workDate") == Stamp(workDay)
    ensures r.Success? ==> forall k :: k in r.value <==> k == "workDate" || (k in input && IsInsertKey(k))
    ensures r.Success? ==> forall k :: k in input && IsInsertKey(k) && k != "workDate" ==> r.value[k] == input[k]
  {
    if InsertAccepts(input) then Success(InsertOutput(input, workDay))
    else Failure("Validation error")
  }

  /** A minimal accepted input: a type and a work date string; a date
      object for `workDate` is refused, since the extension wants text. */
  lemma MinimalInsertAccepted(workDay: Instant)
    ensures InsertAccepts(map["type" := Str("hot"), "workDate" := Str("2024-05-01")])
    ensures !InsertAccepts(map["type" := Str("hot"), "workDate" := Stamp(workDay)])
    ensures !InsertAccepts(map["type" := Str("closed"), "workDate" := Str("2024-05-01")])
    ensures InsertAccepts(map["type" := Str("hot"), "workDate" := Str("2024-05-01"), "id" := Num(7)])
  {
    var ok: Obj := map["type" := Str("hot"), "workDate" := Str("2024-05-01")];
    assert Get(ok, "type") == Str("hot");
    assert forall k :: k in ok && k != "workDate" ==> k == "type";
    var withId: Obj := ok["id" := Num(7)];
    assert Get(withId, "type") == Str("hot") && Get(withId, "workDate") == Str("2024-05-01");
    assert forall k :: k in withId && k != "workDate" && k !in InsertOmitted ==> k == "type";
  }

  /** The omitted server columns play no part in validation or in the
      result: whatever value a body gives `id`, `permitNumber`,
      `createdAt` or `updatedAt`, it parses as if that key were absent. */
  lemma {:induction false} OmittedKeysIgnored(input: Obj, k: string, v: Value, workDay: Instant)
    requires k in InsertOmitted
    ensures InsertAccepts(input[k := v]) == InsertAccepts(input)
    ensures ParseInsertPermit(input[k := v], workDay) == ParseInsertPermit(input, workDay)
  {
    var updated := input[k := v];
    assert Get(updated, "type") == Get(input, "type");
    assert Get(updated, "workDate") == Get(input, "workDate");
    assert forall j :: j in updated && j != "workDate" && j !in InsertOmitted <==>
                       j in input && j != "workDate" && j !in InsertOmitted;
    assert forall j :: j in input && j != k ==> updated[j] == input[j];
    assert InsertOutput(updated, workDay) == InsertOutput(input, workDay);
  }

  // ------------------------------------------------- basic information

  /** `/^\d{2}:\d{2}$/`: five characters, two digits, a colon, two digits.
      Hours and minutes are not range-checked. */
  predicate IsClockTime(s: string)
  {
    |s| == 5 && Decimal.IsDigit(s[0]) && Decimal.IsDigit(s[1]) && s[2] == ':' &&
    Decimal.IsDigit(s[3]) && Decimal.IsDigit(s[4])
  }

  /** Two two-digit fields joined by a colon. */
  function ClockText(hh: nat, mm: nat): (s: string)
    requires hh < 100 && mm < 100
    ensures IsClockTime(s)
  {
    [Decimal.DigitChar(hh / 10), Decimal.DigitChar(hh % 10), ':',
     Decimal.DigitChar(mm / 10), Decimal.DigitChar(mm % 10)]
  }

  /** The pattern accepts exactly the strings `ClockText` writes, for any
      two fields below 100 (so `"99:99"` passes). */
  lemma ClockTimeIsClockText(s: string)
    ensures IsClockTime(s) <==>
      exists hh: nat, mm: nat :: hh < 100 && mm < 100 && ClockText(hh, mm) == s
  {
    if IsClockTime(s) {
      var hh := Decimal.DigitValue(s[0]) * 10 + Decimal.DigitValue(s[1]);
      var mm := Decimal.DigitValue(s[3]) * 10 + Decimal.DigitValue(s[4]);
      assert ClockText(hh, mm) == s;
    }
  }

  lemma NoHourRangeCheck()
    ensures IsClockTime("99:99") && IsClockTime("00:00")
    ensures !IsClockTime("9:30") && !IsClockTime("09:30:00") && !IsClockTime("09-30")
  {
  }

  /** One complaint of the basic-information schema: the field and its
      message. */
  datatype Issue = Issue(field: string, message: string)

  /** The five free-text fields that must be non-empty, with their
      messages, in the schema's order. */
  const RequiredText: seq<(string, string)> := [
    ("executorCompany", "Empresa/ejecutor requerido"),
    ("stationDuct", "Estación/ducto requerido"),
    ("areaSite", "Área/sitio requerido"),
    ("workOrderNumber", "Número de orden requerido"),
    ("workDescription", "Descripción del trabajo requerida")
  ]

  const ClockFields: seq<string> := ["validFrom", "validTo"]

  const BadClockMessage: string := "Formato de hora inválido"

  /** The check of one required text field. */
  function TextIssues(o: Obj, field: string, message: string): (r: seq<Issue>)
    ensures |r| <= 1 && (r == [] <==> Get(o, field).Str? && |Get(o, field).s| >= 1)
    ensures forall j :: 0 <= j < |r| ==> r[j].field == field
  {
    var v := Get(o, field);
    if !v.Str? then [Issue(field, "Expected string")]
    else if |v.s| < 1 then [Issue(field, message)]
    else []
  }

  function ClockIssues(o: Obj, field: string): (r: seq<Issue>)
    ensures |r| <= 1 && (r == [] <==> Get(o, field).Str? && IsClockTime(Get(o, field).s))
    ensures forall j :: 0 <= j < |r| ==> r[j].field == field
  {
    var v := Get(o, field);
    if !v.Str? then [Issue(field, "Expected string")]
    else if !IsClockTime(v.s) then [Issue(field, BadClockMessage)]
    else []
  }

  /** `permitBasicInfoSchema.safeParse(o)`: every complaint, field by field
      in the schema's order. */
  function BasicInfoIssues(o: Obj): seq<Issue>
  {
    TextIssues(o, RequiredText[0].0, RequiredText[0].1) +
    TextIssues(o, RequiredText[1].0, RequiredText[1].1) +
    TextIssues(o, RequiredText[2].0, RequiredText[2].1) +
    TextIssues(o, RequiredText[3].0, RequiredText[3].1) +
    TextIssues(o, RequiredText[4].0, RequiredText[4].1) +
    (if Get(o, "workDate").Stamp? then [] else [Issue("workDate", "Expected date")]) +
    ClockIssues(o, ClockFields[0]) +
    ClockIssues(o, ClockFields[1])
  }

  /** The basic information is accepted exactly when the five text fields
      are non-empty strings, the work date is a date and both validity
      times have the `HH:MM` shape. */
  lemma BasicInfoAccepted(o: Obj)
    ensures BasicInfoIssues(o) == [] <==>
      (forall i :: 0 <= i < |RequiredText| ==>
         Get(o, RequiredText[i].0).Str? && |Get(o, RequiredText[i].0).s| >= 1) &&
      Get(o, "workDate").Stamp? &&
      (forall i :: 0 <= i < |ClockFields| ==>
         Get(o, ClockFields[i]).Str? && IsClockTime(Get(o, ClockFields[i]).s))
  {
  }

  /** The eight fields of the basic-information schema. */
  const BasicInfoFields: set<string> :=
    {"executorCompany", "stationDuct", "areaSite", "workOrderNumber",
     "workDescription", "workDate", "validFrom", "validTo"}

  predicate FieldsAmong(issues: seq<Issue>, fields: set<string>)
  {
    forall j :: 0 <= j < |issues| ==> issues[j].field in fields
  }

  lemma FieldsAmongAppend(a: seq<Issue>, b: seq<Issue>, fields: set<string>)
    requires FieldsAmong(a, fields) && FieldsAmong(b, fields)
    ensures FieldsAmong(a + b, fields)
  {
    forall j | 0 <= j < |a + b|
      ensures (a + b)[j].field in fields
    {
      if j >= |a| {
        assert (a + b)[j] == b[j - |a|];
      }
    }
  }

  /** Each complaint names one of the eight fields of the schema. */
  lemma IssuesNameSchemaFields(o: Obj, i: nat)
    requires i < |BasicInfoIssues(o)|
    ensures BasicInfoIssues(o)[i].field in BasicInfoFields
  {
    var f := BasicInfoFields;
    var t0 := TextIssues(o, RequiredText[0].0, RequiredText[0].1);
    var t1 := TextIssues(o, RequiredText[1].0, RequiredText[1].1);
    var t2 := TextIssues(o, RequiredText[2].0, RequiredText[2].1);
    var t3 := TextIssues(o, RequiredText[3].0, RequiredText[3].1);
    var t4 := TextIssues(o, RequiredText[4].0, RequiredText[4].1);
    var w: seq<Issue> := if Get(o, "workDate").Stamp? then [] else [Issue("workDate", "Expected date")];
    var c0 := ClockIssues(o, ClockFields[0]);
    var c1 := ClockIssues(o, ClockFields[1]);
    assert FieldsAmong(t0, f) && FieldsAmong(t1, f) && FieldsAmong(t2, f) && FieldsAmong(t3, f);
    assert FieldsAmong(t4, f) && FieldsAmong(w, f) && FieldsAmong(c0, f) && FieldsAmong(c1, f);
    FieldsAmongAppend(t0, t1, f);
    FieldsAmongAppend(t0 + t1, t2, f);
    FieldsAmongAppend(t0 + t1 + t2, t3, f);
    FieldsAmongAppend(t0 + t1 + t2 + t3, t4, f);
    FieldsAmongAppend(t0 + t1 + t2 + t3 + t4, w, f);
    FieldsAmongAppend(t0 + t1 + t2 + t3 + t4 + w, c0, f);
    FieldsAmongAppend(t0 + t1 + t2 + t3 + t4 + w + c0, c1, f);
  }
}

=== FILE: seqs.dfy ===
/** `Array.prototype.filter` on sequences, and what the store's queries
    rely on: it keeps exactly the matching elements, in their original
    order, and counting through it is monotone. */
module Seqs {

  /** `s.filter(keep)`; defined from the back, so that appending one
      element to `s` appends at most that element to the result. */
  function Filter<T>(s: seq<T>, keep: T -> bool): (r: seq<T>)
    ensures |r| <= |s|
    ensures forall i :: 0 <= i < |r| ==> r[i] in s && keep(r[i])
    ensures forall i :: 0 <= i < |s| && keep(s[i]) ==> s[i] in r
  {
    if s == [] then []
    else Filter(s[..|s| - 1], keep) + (if keep(s[|s| - 1]) then [s[|s| - 1]] else [])
  }

  /** Filtering distributes over appending one element. */
  lemma FilterSnoc<T>(s: seq<T>, x: T, keep: T -> bool)
    ensures Filter(s + [x], keep) == Filter(s, keep) + (if keep(x) then [x] else [])
  {
    assert (s + [x])[..|s|] == s;
  }

  /** Order preservation: the filtered prefix `s[..j]` is a prefix of the
      filtered whole, so what was kept from the first `j` elements comes
      first, in the same order. */
  lemma {:induction false} FilterPrefix<T>(s: seq<T>, j: nat, keep: T -> bool)
    requires j <= |s|
    ensures Filter(s[..j], keep) <= Filter(s, keep)
    decreases |s| - j
  {
    if j < |s| {
      FilterPrefix(s, j + 1, keep);
      assert s[..j + 1] == s[..j] + [s[j]];
      FilterSnoc(s[..j], s[j], keep);
    } else {
      assert s[..j] == s;
    }
  }

  /** The kept element at position `j` of `s` sits in the result at the
      position given by how many elements were kept before it. */
  lemma FilterPosition<T>(s: seq<T>, j: nat, keep: T -> bool)
    requires j < |s| && keep(s[j])
    ensures |Filter(s[..j], keep)| < |Filter(s, keep)|
    ensures Filter(s, keep)[|Filter(s[..j], keep)|] == s[j]
  {
    FilterPrefix(s, j + 1, keep);
    assert s[..j + 1] == s[..j] + [s[j]];
    FilterSnoc(s[..j], s[j], keep);
  }

  /** Position `i` of the result holds a kept element of `s` that has
      exactly `i` kept elements before it. */
  ghost predicate RankedAt<T>(s: seq<T>, keep: T -> bool, i: nat)
  {
    i < |Filter(s, keep)| &&
    exists j :: 0 <= j < |s| && keep(s[j]) && |Filter(s[..j], keep)| == i && Filter(s, keep)[i] == s[j]
  }

  /** Conversely, every position of the result holds a kept element of
      `s` whose rank (the number of kept elements before it) is that
      position: the result holds nothing but the kept elements, each once. */
  lemma {:induction false} FilterRank<T>(s: seq<T>, keep: T -> bool, i: nat)
    requires i < |Filter(s, keep)|
    ensures RankedAt(s, keep, i)
    decreases |s|
  {
    var n := |s| - 1;
    var init := s[..n];
    assert s == init + [s[n]];
    FilterSnoc(init, s[n], keep);
    if i < |Filter(init, keep)| {
      FilterRank(init, keep, i);
      assert RankedAt(init, keep, i);
      var j :| 0 <= j < |init| && keep(init[j]) && |Filter(init[..j], keep)| == i && Filter(init, keep)[i] == init[j];
      assert init[..j] == s[..j];
      assert s[j] == init[j];
    } else {
      assert s[..n] == init;
      assert keep(s[n]) && Filter(s, keep)[i] == s[n];
      assert |Filter(s[..n], keep)| == i;
    }
  }

  /** Ranks strictly increase along `s`: two kept elements never share a
      position of the result. */
  lemma FilterRankIncreases<T>(s: seq<T>, j1: nat, j2: nat, keep: T -> bool)
    requires j1 < j2 <= |s| && keep(s[j1])
    ensures |Filter(s[..j1], keep)| < |Filter(s[..j2], keep)|
  {
    var t := s[..j2];
    FilterPrefix(t, j1 + 1, keep);
    assert t[..j1 + 1] == s[..j1] + [s[j1]];
    FilterSnoc(s[..j1], s[j1], keep);
  }

  /** Every kept element sits at its rank in the result. */
  lemma AllFilterPositions<T>(s: seq<T>, keep: T -> bool)
    ensures forall j :: 0 <= j < |s| && keep(s[j]) ==>
      |Filter(s[..j], keep)| < |Filter(s, keep)| && Filter(s, keep)[|Filter(s[..j], keep)|] == s[j]
  {
    forall j | 0 <= j < |s| && keep(s[j])
      ensures |Filter(s[..j], keep)| < |Filter(s, keep)| && Filter(s, keep)[|Filter(s[..j], keep)|] == s[j]
    {
      FilterPosition(s, j, keep);
    }
  }

  /** Every position of the result is the rank of a kept element. */
  lemma AllFilterRanks<T>(s: seq<T>, keep: T -> bool)
    ensures forall i: nat :: i < |Filter(s, keep)| ==> RankedAt(s, keep, i)
  {
    forall i: nat | i < |Filter(s, keep)|
      ensures RankedAt(s, keep, i)
    {
      FilterRank(s, keep, i);
    }
  }

  /** Ranks strictly increase, so no two kept elements share a position. */
  lemma AllFilterRanksIncrease<T>(s: seq<T>, keep: T -> bool)
    ensures forall j, k :: 0 <= j < k <= |s| && keep(s[j]) ==>
      |Filter(s[..j], keep)| < |Filter(s[..k], keep)|
  {
    forall j, k | 0 <= j < k <= |s| && keep(s[j])
      ensures |Filter(s[..j], keep)| < |Filter(s[..k], keep)|
    {
      FilterRankIncreases(s, j, k, keep);
    }
  }

  /** A filter every element passes returns the whole sequence. */
  lemma {:induction false} FilterKeepsAll<T>(s: seq<T>, keep: T -> bool)
    requires forall i :: 0 <= i < |s| ==> keep(s[i])
    ensures Filter(s, keep) == s
  {
    if s != [] {
      FilterKeepsAll(s[..|s| - 1], keep);
    }
  }

  /** A filter no element passes returns nothing. */
  lemma {:induction false} FilterKeepsNone<T>(s: seq<T>, keep: T -> bool)
    requires forall i :: 0 <= i < |s| ==> !keep(s[i])
    ensures Filter(s, keep) == []
  {
    if s != [] {
      FilterKeepsNone(s[..|s| - 1], keep);
    }
  }

  /** A weaker test keeps at least as many elements. */
  lemma {:induction false} FilterMonotone<T>(s: seq<T>, strong: T -> bool, weak: T -> bool)
    requires forall i :: 0 <= i < |s| ==> strong(s[i]) ==> weak(s[i])
    ensures |Filter(s, strong)| <= |Filter(s, weak)|
  {
    if s != [] {
      FilterMonotone(s[..|s| - 1], strong, weak);
    }
  }

  /** Two tests that no element passes together keep at most `|s|`
      elements between them. */
  lemma {:induction false} FilterDisjoint<T>(s: seq<T>, p: T -> bool, q: T -> bool)
    requires forall i :: 0 <= i < |s| ==> !(p(s[i]) && q(s[i]))
    ensures |Filter(s, p)| + |Filter(s, q)| <= |s|
  {
    if s != [] {
      FilterDisjoint(s[..|s| - 1], p, q);
    }
  }

  /** A test that is the union of two disjoint tests keeps as many
      elements as the two keep together. */
  lemma {:induction false} FilterSplit<T>(s: seq<T>, p: T -> bool, q: T -> bool, either: T -> bool)
    requires forall i :: 0 <= i < |s| ==> (either(s[i]) <==> p(s[i]) || q(s[i])) && !(p(s[i]) && q(s[i]))
    ensures |Filter(s, either)| == |Filter(s, p)| + |Filter(s, q)|
  {
    if s != [] {
      FilterSplit(s[..|s| - 1], p, q, either);
    }
  }
}
